=== FILE: README.md ===
# Cache-cluster transports, modelled in Dafny

The system keeps the second-level caches of several application nodes in step. A node
that evicts an entry sends a small eviction message to the other nodes. A node that
receives one hands it to its cache handler, unless the message is its own. Several
interchangeable transports carry these messages.

- **Frame codec** (`Wire`). The socket transports share the frame layout of the
  transport base class: the sender's 16-byte identity, then a little-endian Int32 that
  packs `(length << 8) | opcode`, then the payload. The opcode flags are `Hello`,
  `Welcome` and `Evict`. The reader derives `SentByMe`; it is never sent.
- **Address property** (`Endpoint`). The base class's `Multicastaddr` has the form
  `[user[:password]@]host:port`, with its getter and setter.
- **Send path** (`TransportBase`). `SendBase`, with its sticky `closed` flag, and
  `SafeClose`.
- **Relay client** (`RelayClient`). One TCP connection to the relay server, a
  Hello/Welcome handshake, framed Evict sends and a receive loop that drops its own
  frames.
- **Relay server** (`RelayServer`). A table of connected partners, a read callback
  that classifies each 20-byte header, and broadcast work items. A work item forwards
  an Evict frame to every partner except its sender. The asynchronous callbacks are
  modelled as a sequential state machine: one event at a time on one server state.
- **Identity-prefix framing** (`PrefixFraming`). The UDP multicast, plain TCP and RDM
  transports send the identity followed by the payload. The receiver drops short
  datagrams and its own. The three transports share the address setter (split at the
  first ':'), the Init check and the receive loop.
- **Transport state machines** (`UdpMulticast`, `TcpCluster`, `RdmCluster`). Their
  Init, SendMessage and Close. For RDM, also the accept loop and the per-session
  receive chain.
- **Message-broker transport** (`Broker`). The RabbitMQ transport without the client
  library:
  - the routing key is the identity in hexadecimal;
  - the connection settings are derived from the address fields;
  - the publish path;
  - the consume loop with its reconnect.
- **End-to-end properties** (`Scenarios`). They join the client's and the server's
  models.

Sockets, threads, clocks and the broker client are not modelled. Where the code asks
one of them something, the model takes the answer as a parameter:
- `SendAttempt` is what `Socket.Send` reported;
- `accepted` is the byte count the socket took;
- `Reply` is what `ReceiveAll` read;
- `Reach` is how the broker answered;
- `parsesAsIp` stands for `IPAddress.Parse`/`TryParse`;
- `decode` and `utf8` stand for the UTF-8 conversions;
- `joined` is whether `Thread.Join` succeeded;
- `reports` is what `EndSend` returned per target.

A null string is the empty string. Every reader of these fields (`IsNullOrEmpty`,
concatenation) treats null and "" alike.

Three behaviours of the code that are easy to misread:
- **A rejected handshake does not throw.** When the relay's reply is missing or is not
  a zero-length Welcome, the relay client's `Init` calls `Close`. `Close` discards
  `SafeClose`'s null result, so the socket reference survives and the final
  null-socket check never fires. `Init` therefore returns normally, with the transport
  closed and no receiver (`RelayClient.Init`).
- **Welcome echoes the client's identity.** The server writes `Welcome` over the packed
  field of the header buffer it just read. The reply therefore carries the client's own
  identity, and the client reads it as `SentByMe` (`RelayServer.Classify`,
  `Scenarios.HelloWelcomeHandshake`).
- **Lengths can read back negative.** The length is not a plain 3-byte field. It comes
  from an arithmetic `>> 8` of a signed Int32, so a payload of 2^23 bytes or more
  reads back negative (`Wire.LongPayloadReadsNegative`). Allocating the payload buffer
  in the relay client's receive loop then throws OverflowException. Neither the loop's
  SocketException handler nor its `finally` catches it, so it goes unhandled on the
  receiver thread and ends the process (`RelayClient.ReceiveFrames`).

## Model

| member | source | states |
|---|---|---|
| `Wire.Low7` | src/CustomSecondLevelCacheCluster/CustomSecondLevelCacheClusterTransport/SecondLevelCacheClusterTransportBase.cs:143 | the opcode that goes on the wire has SentByMe cleared and keeps the Hello, Welcome and Evict bits |
| `Wire.MarkSentByMe` | src/CustomSecondLevelCacheCluster/CustomSecondLevelCacheClusterTransport/SecondLevelCacheClusterTransportBase.cs:133-134 | adding SentByMe sets that flag and leaves the transmitted bits alone |
| `Wire.HeaderLength` | src/CustomSecondLevelCacheCluster/CustomSecondLevelCacheClusterTransport/SecondLevelCacheClusterTransportBase.cs:120 | the header is the identity plus four bytes, 20 in all |
| `Wire.LE32RoundTrip` | src/CustomSecondLevelCacheCluster/CustomSecondLevelCacheClusterTransport/SecondLevelCacheClusterTransportBase.cs:131-144 | the bytes GetBytes writes read back as the same 32-bit pattern |
| `Wire.ToSigned32` | src/CustomSecondLevelCacheCluster/CustomSecondLevelCacheClusterTransport/SecondLevelCacheClusterTransportBase.cs:131 | ToInt32 yields an Int32 that differs from the unsigned pattern by a multiple of 2^32 |
| `Wire.PackedField` | src/CustomSecondLevelCacheCluster/CustomSecondLevelCacheClusterTransport/SecondLevelCacheClusterTransportBase.cs:142-143 | the packed field's low byte is the opcode without SentByMe; its upper 24 bits are the length modulo 2^24, because the shift drops the higher bits |
| `Wire.PrepareSending` | src/CustomSecondLevelCacheCluster/CustomSecondLevelCacheClusterTransport/SecondLevelCacheClusterTransportBase.cs:138-149 | the segments are the identity, a 4-byte field that decodes to the packed field, and the payload; a null payload gives two segments and length 0 |
| `Wire.GetLength` | src/CustomSecondLevelCacheCluster/CustomSecondLevelCacheClusterTransport/SecondLevelCacheClusterTransportBase.cs:122-125 | a null list counts 0 bytes; otherwise the count is the length of the concatenated segments |
| `Wire.Encode` | src/CustomSecondLevelCacheCluster/CustomSecondLevelCacheClusterTransport/SecondLevelCacheClusterTransportBase.cs:138-149 | the frame on the wire is 20 bytes plus the payload: the identity, the packed field, then the payload unchanged |
| `Wire.PreparedLength` | src/CustomSecondLevelCacheCluster/CustomSecondLevelCacheClusterTransport/SecondLevelCacheClusterTransportBase.cs:163-164 | the count SendBase expects the socket to accept is 20 plus the payload length |
| `Wire.SentByMeCheck` | src/CustomSecondLevelCacheCluster/CustomSecondLevelCacheClusterTransport/SecondLevelCacheClusterTransportBase.cs:68-76 | the byte loop answers true exactly when the buffer's first 16 bytes are the local identity |
| `Wire.FrameLength` | src/CustomSecondLevelCacheCluster/CustomSecondLevelCacheClusterTransport/SecondLevelCacheClusterTransportBase.cs:135 | the length a header carries is a signed 24-bit number, so it can be negative |
| `Wire.ReadHeader` | src/CustomSecondLevelCacheCluster/CustomSecondLevelCacheClusterTransport/SecondLevelCacheClusterTransportBase.cs:127-136 | a buffer shorter than 20 bytes (or null) is rejected; otherwise the length is the field's bytes 17..19 read as a signed value; the opcode keeps the transmitted bits; SentByMe is set exactly when the prefix is the reader's identity or bit 7 came over the wire |
| `Wire.ReadHeaderFlags` | src/CustomSecondLevelCacheCluster/CustomSecondLevelCacheClusterTransport/SecondLevelCacheClusterTransportBase.cs:131-134 | Hello, Welcome and Evict read back exactly as they were sent |
| `Wire.ReadPrepared` | src/CustomSecondLevelCacheCluster/CustomSecondLevelCacheClusterTransport/SecondLevelCacheClusterTransportBase.cs:127-149 | header round trip: reading a prepared frame gives back the payload length (modulo the signed 24-bit field) and the opcode without SentByMe; SentByMe is set exactly when reader and sender are the same node |
| `Wire.LongPayloadReadsNegative` | src/CustomSecondLevelCacheCluster/CustomSecondLevelCacheClusterTransport/SecondLevelCacheClusterTransportBase.cs:135-143 | a payload of 2^23 bytes up to 2^24 reads back as its length minus 2^24, a negative number |
| `TransportBase.SendBase` | src/CustomSecondLevelCacheCluster/CustomSecondLevelCacheClusterTransport/SecondLevelCacheClusterTransportBase.cs:161-182 | when closed, it throws and sends nothing; with no socket, it does nothing and does not throw; otherwise it offers exactly the encoded frame, and closes and throws exactly when the socket reported an error or accepted a different count |
| `TransportBase.ClosedIsSticky` | src/CustomSecondLevelCacheCluster/CustomSecondLevelCacheClusterTransport/SecondLevelCacheClusterTransportBase.cs:167-180 | across a series of sends, once one has thrown, every later one throws and the flag stays set |
| `TransportBase.NoSocketSendsNothing` | src/CustomSecondLevelCacheCluster/CustomSecondLevelCacheClusterTransport/SecondLevelCacheClusterTransportBase.cs:169-177 | an open transport without a socket never throws and never closes, whatever it is asked to send |
| `TransportBase.SafeClose` | src/CustomSecondLevelCacheCluster/CustomSecondLevelCacheClusterTransport/SecondLevelCacheClusterTransportBase.cs:210-224 | it always returns null; the socket it is given ends up closed, except a socket that never connected, on which Shutdown throws so that Close is skipped and the socket stays as it was |
| `Endpoint.Format` | src/CustomSecondLevelCacheCluster/CustomSecondLevelCacheClusterTransport/SecondLevelCacheClusterTransportBase.cs:29-39 | the port the getter writes is exactly the text after the last ':' of its result, which is where the setter looks for it; the result contains an '@' exactly when there are credentials or the host has one |
| `Endpoint.Assign` | src/CustomSecondLevelCacheCluster/CustomSecondLevelCacheClusterTransport/SecondLevelCacheClusterTransportBase.cs:40-44 | without ':' the setter throws; on success the port is the Int32 after the last ':', the host carries no '@', and a value without '@' leaves user and password as they were |
| `Endpoint.ApplyAddress` | src/CustomSecondLevelCacheCluster/CustomSecondLevelCacheClusterTransport/SecondLevelCacheClusterTransportBase.cs:44-58 | the host keeps no '@' and the port is untouched; an address without '@' only replaces the host |
| `Endpoint.ApplyCredentials` | src/CustomSecondLevelCacheCluster/CustomSecondLevelCacheClusterTransport/SecondLevelCacheClusterTransportBase.cs:47-56 | the credentials change only user and password, never host or port |
| `Endpoint.AssignAddressPort` | src/CustomSecondLevelCacheCluster/CustomSecondLevelCacheClusterTransport/SecondLevelCacheClusterTransportBase.cs:42-44 | `address:port` splits at its last ':' into the address and an Int32 port, whatever the address contains |
| `Endpoint.AssignFormat` | src/CustomSecondLevelCacheCluster/CustomSecondLevelCacheClusterTransport/SecondLevelCacheClusterTransportBase.cs:27-60 | getter-then-setter round trip: host, port, user and password come back unchanged when the host has no '@' and the user has no ':' |
| `Endpoint.ApplyCredentialAddress` | src/CustomSecondLevelCacheCluster/CustomSecondLevelCacheClusterTransport/SecondLevelCacheClusterTransportBase.cs:45-57 | `credentials@host` splits at its last '@' into the credentials and the host |
| `Endpoint.CredentialsRoundTrip` | src/CustomSecondLevelCacheCluster/CustomSecondLevelCacheClusterTransport/SecondLevelCacheClusterTransportBase.cs:47-55 | the credentials the getter joins split back at the first ':' into the same user and password |
| `Endpoint.CredentialsAreSticky` | src/CustomSecondLevelCacheCluster/CustomSecondLevelCacheClusterTransport/SecondLevelCacheClusterTransportBase.cs:45-58 | assigning a value without credentials keeps the previous user and password |
| `Endpoint.NoColonWritesPort` | src/CustomSecondLevelCacheCluster/CustomSecondLevelCacheClusterTransport/SecondLevelCacheClusterTransportBase.cs:42-44 | a numeric value without ':' writes the port before the setter throws |
| `RelayClient.New` | src/CustomSecondLevelCacheCluster/CustomSecondLevelCacheClusterTransport/TcpCacheClusterTransport.cs:19-22 | a new client is configured for 127.0.0.1 port 9999, which its getter writes back as the same text, and holds no socket |
| `RelayClient.RejectedReplyIsSilent` | src/CustomSecondLevelCacheCluster/CustomSecondLevelCacheClusterTransport/TcpCacheClusterTransport.cs:55-76 | with a valid address, a working connect and the whole Hello sent, a missing or rejected reply leaves the transport closed, with no receiver and the socket closed, and Init raises nothing |
| `RelayClient.Close` | src/CustomSecondLevelCacheCluster/CustomSecondLevelCacheClusterTransport/TcpCacheClusterTransport.cs:84-102 | Close sets `closed` and applies SafeClose to the socket; the reference is dropped only if a receiver thread existed and joined, and otherwise the socket is left as SafeClose left it |
| `RelayClient.GreetingText` | src/CustomSecondLevelCacheCluster/CustomSecondLevelCacheClusterTransport/TcpCacheClusterTransport.cs:51 | the Hello text is Localpath, or "<Localpath>" when that is empty; never empty |
| `RelayClient.Handshake` | src/CustomSecondLevelCacheCluster/CustomSecondLevelCacheClusterTransport/TcpCacheClusterTransport.cs:54-68 | the receiver starts exactly when a reply arrived that reads as a zero-length Welcome; otherwise the transport is closed and keeps its closed socket |
| `RelayClient.Init` | src/CustomSecondLevelCacheCluster/CustomSecondLevelCacheClusterTransport/TcpCacheClusterTransport.cs:29-77 | a missing host or port fails before anything else, then an unparsable one; with a valid address Init raises no error exactly when the connect works, the transport was open and the whole Hello went out; a refused connect raises ConnectFailed and leaves an unconnected socket that is never closed, a failed Hello raises CommunicationBroken; the client ends up receiving exactly when, in addition, the reply is accepted; the Hello offered is the encoded greeting; a rejected handshake closes the transport but raises no error |
| `RelayClient.SendMessage` | src/CustomSecondLevelCacheCluster/CustomSecondLevelCacheClusterTransport/TcpCacheClusterTransport.cs:79-82 | the frame offered is the payload encoded with Evict; only `closed` changes; a closed client throws |
| `RelayClient.ReadFrame` | src/CustomSecondLevelCacheCluster/CustomSecondLevelCacheClusterTransport/TcpCacheClusterTransport.cs:113-118 | a complete frame's payload is exactly the bytes behind its 20-byte header, within the stream |
| `RelayClient.ReceiveFrames` | src/CustomSecondLevelCacheCluster/CustomSecondLevelCacheClusterTransport/TcpCacheClusterTransport.cs:104-146 | the loop over the bytes the socket yields never ends on `closed`, and it hands over or logs at most one frame per 20 bytes read |
| `RelayClient.ReceiveLoop` | src/CustomSecondLevelCacheCluster/CustomSecondLevelCacheClusterTransport/TcpCacheClusterTransport.cs:104-146 | the loop delivers nothing once `closed` is set; otherwise it hands over, frame by frame, what the recursive definition of the stream does |
| `RelayClient.ReadHeaderPrefix` | src/CustomSecondLevelCacheCluster/CustomSecondLevelCacheClusterTransport/SecondLevelCacheClusterTransportBase.cs:127-136 | ReadHeader looks at nothing beyond the first 20 bytes |
| `RelayClient.ReceiveSentFrames` | src/CustomSecondLevelCacheCluster/CustomSecondLevelCacheClusterTransport/TcpCacheClusterTransport.cs:108-135 | stream round trip: a series of Evict frames delivers the other senders' payloads in order and counts the reader's own frames as echoes |
| `RelayClient.OwnFramesNeverDelivered` | src/CustomSecondLevelCacheCluster/CustomSecondLevelCacheClusterTransport/TcpCacheClusterTransport.cs:120-129 | a node's own frames are never handed to its handler |
| `RelayServer.Start` | src/CustomSecondLevelCacheCluster/TcpCacheClusterServer/Program.cs:47-75 | the server starts with no partners, no work items and the broadcast counter at 0 |
| `RelayServer.NextNumber` | src/CustomSecondLevelCacheCluster/TcpCacheClusterServer/Program.cs:49-52 | Interlocked.Increment adds one, wrapping at Int32.MaxValue |
| `RelayServer.Accept` | src/CustomSecondLevelCacheCluster/TcpCacheClusterServer/Program.cs:127-149 | a new partner with a fresh identity joins the end of the table, and the server stays valid |
| `RelayServer.PeerIndex` | src/CustomSecondLevelCacheCluster/TcpCacheClusterServer/Program.cs:234 | finds the first partner with that identity, or reports that there is none |
| `RelayServer.RemovePeer` | src/CustomSecondLevelCacheCluster/TcpCacheClusterServer/Program.cs:232-235 | List.Remove leaves the table as it was when no partner has that identity, and otherwise removes exactly one entry |
| `RelayServer.RemoveOnlyThat` | src/CustomSecondLevelCacheCluster/TcpCacheClusterServer/Program.cs:232-236 | List.Remove on a table of distinct partners drops exactly that partner and keeps every other one |
| `RelayServer.Targets` | src/CustomSecondLevelCacheCluster/TcpCacheClusterServer/Program.cs:250-254 | the fan-out targets are exactly the partners in the table other than the sender |
| `RelayServer.TargetsInTableOrder` | src/CustomSecondLevelCacheCluster/TcpCacheClusterServer/Program.cs:250-254 | the targets are the table without the sender, in table order |
| `RelayServer.Classify` | src/CustomSecondLevelCacheCluster/TcpCacheClusterServer/Program.cs:160-224 | a read of other than 20 bytes disconnects. A relay happens exactly for a positive length within the limit with Evict set and the payload available, and carries the header plus that payload. A greeting happens exactly when Hello is set, the length is in range, the name is readable and the reply went out; the reply is the client's own header with Welcome packed in. Everything else in range is only logged |
| `RelayServer.Relayed` | src/CustomSecondLevelCacheCluster/TcpCacheClusterServer/Program.cs:176-183 | the sender's eviction count rises by one (wrapping), the counter advances, and a broadcast with the new number is queued |
| `RelayServer.Greeted` | src/CustomSecondLevelCacheCluster/TcpCacheClusterServer/Program.cs:196-204 | the partner's alias becomes "name (endpoint)" and nothing else changes |
| `RelayServer.OnRead` | src/CustomSecondLevelCacheCluster/TcpCacheClusterServer/Program.cs:151-244 | a connected partner's read does what Classify decides; a disconnect removes exactly that partner; a relay updates only the sender's record and queues one broadcast; a greeting only changes the alias; the server stays valid |
| `RelayServer.RemoveKeepsValid` | src/CustomSecondLevelCacheCluster/TcpCacheClusterServer/Program.cs:226-236 | disconnecting a partner keeps identities distinct and the table valid |
| `RelayServer.ShutFailed` | src/CustomSecondLevelCacheCluster/TcpCacheClusterServer/Program.cs:255-296 | exactly the targets whose send failed (socket already shut, an error, or a short count) are shut down; every other record stays as it was |
| `RelayServer.Delivered` | src/CustomSecondLevelCacheCluster/TcpCacheClusterServer/Program.cs:255-296 | a delivery goes to a partner exactly when it is not the sender and its send succeeded, and it carries the broadcast's number and data |
| `RelayServer.Perform` | src/CustomSecondLevelCacheCluster/TcpCacheClusterServer/Program.cs:246-296 | a work item leaves the queue; targets are shut down only on failure; no partner leaves the table; the sends are those Delivered lists |
| `RelayServer.FanOutExcludesSender` | src/CustomSecondLevelCacheCluster/TcpCacheClusterServer/Program.cs:250-254 | a broadcast never goes back to its sender, and every other partner either receives it whole or is shut down |
| `RelayServer.Run` | src/CustomSecondLevelCacheCluster/TcpCacheClusterServer/Program.cs:127-271 | over a series of events the server stays valid and at most one broadcast is created per event |
| `RelayServer.Step` | src/CustomSecondLevelCacheCluster/TcpCacheClusterServer/Program.cs:127-296 | each event keeps the server valid and creates at most one broadcast, numbered with the counter's new value |
| `RelayServer.AdvanceValue` | src/CustomSecondLevelCacheCluster/TcpCacheClusterServer/Program.cs:51 | k increments add exactly k until Int32.MaxValue, and k modulo 2^32 in general |
| `RelayServer.RunNumbers` | src/CustomSecondLevelCacheCluster/TcpCacheClusterServer/Program.cs:47-52 | over any run, the broadcasts carry the numbers that follow the starting counter, one increment each, and the counter ends on the last |
| `RelayServer.NumbersIncrease` | src/CustomSecondLevelCacheCluster/TcpCacheClusterServer/Program.cs:47-52 | from start-up, until the counter wraps, broadcasts are numbered 1, 2, 3, ... and strictly increase |
| `PrefixFraming.Assign` | src/CustomSecondLevelCacheCluster/CustomSecondLevelCacheClusterTransport/UdpMulticastClusterTransport.cs:35-40 | without ':' the setter throws and writes nothing; otherwise the host before the first ':' is written; the call completes exactly when the rest parses as an Int32, which becomes the port |
| `PrefixFraming.AssignFormat` | src/CustomSecondLevelCacheCluster/CustomSecondLevelCacheClusterTransport/UdpMulticastClusterTransport.cs:32-41 | getter-then-setter round trip for a host without ':' and an Int32 port |
| `PrefixFraming.SecondColonThrows` | src/CustomSecondLevelCacheCluster/CustomSecondLevelCacheClusterTransport/UdpMulticastClusterTransport.cs:37-39 | a second ':' makes the port unparsable; the setter throws after writing the host |
| `PrefixFraming.InitCheck` | src/CustomSecondLevelCacheCluster/CustomSecondLevelCacheClusterTransport/UdpMulticastClusterTransport.cs:60-62 | Init reports a missing address exactly when the host is blank or the port is not positive, and goes on exactly when the host also parses |
| `PrefixFraming.UnsetCannotInit` | src/CustomSecondLevelCacheCluster/CustomSecondLevelCacheClusterTransport/UdpMulticastClusterTransport.cs:35-61 | a value without ':' leaves a fresh transport unset, and Init then reports the missing address |
| `PrefixFraming.InitAfterAssign` | src/CustomSecondLevelCacheCluster/CustomSecondLevelCacheClusterTransport/UdpMulticastClusterTransport.cs:32-62 | an address assigned from its own formatted text passes Init exactly when the original does |
| `PrefixFraming.Frame` | src/CustomSecondLevelCacheCluster/CustomSecondLevelCacheClusterTransport/UdpMulticastClusterTransport.cs:90-92 | the datagram is 16 bytes longer than the payload, starts with the identity and ends with the payload |
| `PrefixFraming.SendMessage` | src/CustomSecondLevelCacheCluster/CustomSecondLevelCacheClusterTransport/UdpMulticastClusterTransport.cs:88-101 | the datagram offered is the identity then the payload, and the call throws exactly when the socket took any other count |
| `PrefixFraming.Filter` | src/CustomSecondLevelCacheCluster/CustomSecondLevelCacheClusterTransport/UdpMulticastClusterTransport.cs:139-150 | at most 16 bytes are ignored; a longer datagram with this node's identity is only logged; any other hands its non-empty tail after the identity to the handler |
| `PrefixFraming.FilterFrame` | src/CustomSecondLevelCacheCluster/CustomSecondLevelCacheClusterTransport/UdpMulticastClusterTransport.cs:88-151 | framing round trip: a receiver gets back exactly the payload another node sent, drops its own datagrams, and drops empty payloads |
| `PrefixFraming.ListenCounts` | src/CustomSecondLevelCacheCluster/CustomSecondLevelCacheClusterTransport/UdpMulticastClusterTransport.cs:139-145 | the static Counter advances by one per delivered payload, with Int32 wrap-around |
| `PrefixFraming.Listen` | src/CustomSecondLevelCacheCluster/CustomSecondLevelCacheClusterTransport/UdpMulticastClusterTransport.cs:123-162 | the loop is still waiting exactly when no tick was a Close and no Receive was interrupted or aborted; time-outs, other errors and caught exceptions keep it going |
| `PrefixFraming.ErrorDeliversNothing` | src/CustomSecondLevelCacheCluster/CustomSecondLevelCacheClusterTransport/UdpMulticastClusterTransport.cs:134-140 | a Receive that reported an error other than an interrupt or an abort returns 0 bytes, so it delivers and counts nothing and the loop goes on |
| `PrefixFraming.CloseStopsListening` | src/CustomSecondLevelCacheCluster/CustomSecondLevelCacheClusterTransport/UdpMulticastClusterTransport.cs:128 | once Close has set `closed`, nothing arriving later is delivered or counted |
| `PrefixFraming.ListenDeliversOthers` | src/CustomSecondLevelCacheCluster/CustomSecondLevelCacheClusterTransport/UdpMulticastClusterTransport.cs:123-162 | a loop that receives every datagram whole delivers exactly the other nodes' non-empty payloads, in order, and keeps waiting |
| `UdpMulticast.Create` | src/CustomSecondLevelCacheCluster/CustomSecondLevelCacheClusterTransport/UdpMulticastClusterTransport.cs:25-29 | a fresh transport has no address, so Init reports the missing address |
| `UdpMulticast.Init` | src/CustomSecondLevelCacheCluster/CustomSecondLevelCacheClusterTransport/UdpMulticastClusterTransport.cs:55-86 | a failed address check throws its error and changes nothing; otherwise Init completes exactly when every socket call does; a sender call that throws (AddMembership, Connect) leaves an unusable sender assigned and the receiver as it was, and a receiver call that throws (AddMembership, Bind) leaves a usable sender and an unusable receiver |
| `UdpMulticast.Send` | src/CustomSecondLevelCacheCluster/CustomSecondLevelCacheClusterTransport/UdpMulticastClusterTransport.cs:88-101 | without an open sender socket the call throws and sends nothing; with one it offers the framed payload and throws exactly on a short send |
| `UdpMulticast.Close` | src/CustomSecondLevelCacheCluster/CustomSecondLevelCacheClusterTransport/UdpMulticastClusterTransport.cs:103-121 | Close sets `closed` and closes whichever sockets exist, keeping the references |
| `UdpMulticast.SendAfterCloseThrows` | src/CustomSecondLevelCacheCluster/CustomSecondLevelCacheClusterTransport/UdpMulticastClusterTransport.cs:96-99 | since SendMessage has no `closed` guard, sending after Close throws and sends nothing |
| `UdpMulticast.SenderSetupFailureBreaksSend` | src/CustomSecondLevelCacheCluster/CustomSecondLevelCacheClusterTransport/UdpMulticastClusterTransport.cs:64-71 | when a sender call in Init throws, every later send throws without offering anything, and Close closes the kept sender |
| `UdpMulticast.SendAfterInit` | src/CustomSecondLevelCacheCluster/CustomSecondLevelCacheClusterTransport/UdpMulticastClusterTransport.cs:88-101 | after a successful Init a send offers the identity plus the payload and throws exactly on a short send |
| `UdpMulticast.CloseIdempotent` | src/CustomSecondLevelCacheCluster/CustomSecondLevelCacheClusterTransport/UdpMulticastClusterTransport.cs:103-109 | closing twice leaves the same state as closing once |
| `TcpCluster.Init` | src/CustomSecondLevelCacheCluster/CustomSecondLevelCacheClusterTransport/TcpClusterTransport.cs:54-70 | a failed address check throws its error and changes nothing; otherwise Init completes exactly when Connect does, and a Connect that throws leaves the unconnected socket assigned |
| `TcpCluster.Send` | src/CustomSecondLevelCacheCluster/CustomSecondLevelCacheClusterTransport/TcpClusterTransport.cs:72-85 | without an open socket the call throws; with one it offers the framed payload and throws exactly on a short send |
| `TcpCluster.Close` | src/CustomSecondLevelCacheCluster/CustomSecondLevelCacheClusterTransport/TcpClusterTransport.cs:87-105 | Close sets `closed` and closes a connected socket, keeping the reference; it throws exactly when the socket was already closed or never connected, and a never-connected socket stays as it was because Shutdown throws first |
| `TcpCluster.FailedConnectCloseThrows` | src/CustomSecondLevelCacheCluster/CustomSecondLevelCacheClusterTransport/TcpClusterTransport.cs:64-65 | after a Connect that threw in Init, Close throws however many times it is called, and the socket is never closed |
| `TcpCluster.SecondCloseThrows` | src/CustomSecondLevelCacheCluster/CustomSecondLevelCacheClusterTransport/TcpClusterTransport.cs:87-94 | after Init the first Close succeeds and the second throws |
| `TcpCluster.SendAfterCloseThrows` | src/CustomSecondLevelCacheCluster/CustomSecondLevelCacheClusterTransport/TcpClusterTransport.cs:80-84 | sending after Close throws and sends nothing |
| `TcpCluster.CoalescedReadsMerge` | src/CustomSecondLevelCacheCluster/CustomSecondLevelCacheClusterTransport/TcpClusterTransport.cs:116-127 | when two frames arrive in one read, the second frame, identity and all, reaches the handler inside the first payload |
| `TcpCluster.OwnFrameHidesNext` | src/CustomSecondLevelCacheCluster/CustomSecondLevelCacheClusterTransport/TcpClusterTransport.cs:123-134 | when this node's own frame comes first in a read, the other node's frame behind it is dropped with it |
| `RdmCluster.Init` | src/CustomSecondLevelCacheCluster/CustomSecondLevelCacheClusterTransport/RdmClusterTransport.cs:55-83 | a failed address check throws its error and changes nothing; otherwise Init completes exactly when every socket call does; without PGM nothing is assigned; a sender Connect that throws leaves an unusable sender; a receiver constructor that throws leaves a usable sender and the receiver as it was; a receiver Bind, Listen or BeginAccept that throws leaves a usable sender and an unusable receiver |
| `RdmCluster.Send` | src/CustomSecondLevelCacheCluster/CustomSecondLevelCacheClusterTransport/RdmClusterTransport.cs:85-101 | a closed transport, or one without a sender, silently sends nothing; on a connected sender the framed payload is offered and a short send throws; a sender that never connected throws |
| `RdmCluster.Close` | src/CustomSecondLevelCacheCluster/CustomSecondLevelCacheClusterTransport/RdmClusterTransport.cs:103-121 | Close sets `closed` and drops each socket, except one whose Shutdown threw, which is kept as it was; Shutdown always throws on a socket that never connected or listened, so such a socket is always kept |
| `RdmCluster.SetupFailureAndSend` | src/CustomSecondLevelCacheCluster/CustomSecondLevelCacheClusterTransport/RdmClusterTransport.cs:64-83 | without PGM a fresh transport keeps no sender, so a send is silently dropped; after a sender Connect that threw, a send throws; when only the receiver could not be created, a send still offers the framed payload |
| `RdmCluster.SendAfterCloseIsSilent` | src/CustomSecondLevelCacheCluster/CustomSecondLevelCacheClusterTransport/RdmClusterTransport.cs:95-117 | after Close a send neither sends nor throws, whatever Shutdown did |
| `RdmCluster.OnAccept` | src/CustomSecondLevelCacheCluster/CustomSecondLevelCacheClusterTransport/RdmClusterTransport.cs:123-140 | a partner is started exactly when EndAccept and the Partner constructor succeed; accepting goes on exactly when the next BeginAccept succeeds too; any exception closes the transport, keeping a partner already queued running; an accept not completed stops accepting and changes nothing |
| `RdmCluster.AcceptFailureSilencesSend` | src/CustomSecondLevelCacheCluster/CustomSecondLevelCacheClusterTransport/RdmClusterTransport.cs:123-140 | an exception in OnAccept, before or after the partner is queued, closes the transport, stops accepting, and makes every later send a no-op |
| `RdmCluster.Buffer` | src/CustomSecondLevelCacheCluster/CustomSecondLevelCacheClusterTransport/RdmClusterTransport.cs:165-167 | the receive buffer is 65000 bytes: the data read, then zeros |
| `RdmCluster.ReceiveAsWritten` | src/CustomSecondLevelCacheCluster/CustomSecondLevelCacheClusterTransport/RdmClusterTransport.cs:163-186 | an error stops the chain; a read of 16 bytes or more delivers its tail unless it is this node's own; the call crashes exactly when fewer than 16 bytes arrived and the zero-padded prefix is not this node's identity |
| `RdmCluster.EmptyReadCrashes` | src/CustomSecondLevelCacheCluster/CustomSecondLevelCacheClusterTransport/RdmClusterTransport.cs:175-179 | an empty successful read crashes every node whose identity does not start with a zero byte |
| `RdmCluster.Serve` | src/CustomSecondLevelCacheCluster/CustomSecondLevelCacheClusterTransport/RdmClusterTransport.cs:163-186 | corrected chain of receives (see Findings): at most one payload per read; still reading exactly when no read failed or came back empty |
| `RdmCluster.Receive` | src/CustomSecondLevelCacheCluster/CustomSecondLevelCacheClusterTransport/RdmClusterTransport.cs:163-186 | corrected receive: it never crashes; it stops exactly on an error or an empty read; it delivers exactly a longer-than-16-byte read from another node, and delivers that read's tail |
| `RdmCluster.SixteenByteReadDiffers` | src/CustomSecondLevelCacheCluster/CustomSecondLevelCacheClusterTransport/RdmClusterTransport.cs:175-179 | the correction's second change: a read of exactly 16 bytes from another node delivers an empty payload as written, and nothing once corrected |
| `RdmCluster.ReceiveAgreesWhenDelivering` | src/CustomSecondLevelCacheCluster/CustomSecondLevelCacheClusterTransport/RdmClusterTransport.cs:175-184 | on reads longer than 16 bytes the corrected receive and the code as written agree |
| `RdmCluster.ServeDeliversOthers` | src/CustomSecondLevelCacheCluster/CustomSecondLevelCacheClusterTransport/RdmClusterTransport.cs:163-186 | a session that delivers datagrams whole hands over exactly the other nodes' non-empty payloads, in order, and does not end by itself |
| `Broker.Hex2` | src/CustomSecondLevelCacheCluster/CustomSecondLevelCacheClusterTransport/RabbitMQCacheClusterTransport.cs:20 | "X2" writes two upper-case hexadecimal digits whose value is the byte |
| `Broker.Hex` | src/CustomSecondLevelCacheCluster/CustomSecondLevelCacheClusterTransport/RabbitMQCacheClusterTransport.cs:20 | the joined form has two hexadecimal digits per byte |
| `Broker.RoutingKey` | src/CustomSecondLevelCacheCluster/CustomSecondLevelCacheClusterTransport/RabbitMQCacheClusterTransport.cs:20 | the routing key is 32 upper-case hexadecimal digits |
| `Broker.UnhexHex` | src/CustomSecondLevelCacheCluster/CustomSecondLevelCacheClusterTransport/RabbitMQCacheClusterTransport.cs:20 | the identity can be read back from its hexadecimal form |
| `Broker.RoutingKeyInjective` | src/CustomSecondLevelCacheCluster/CustomSecondLevelCacheClusterTransport/RabbitMQCacheClusterTransport.cs:151 | two routing keys are equal exactly when the identities are, so the key comparison recognises exactly the node's own messages |
| `Broker.HostName` | src/CustomSecondLevelCacheCluster/CustomSecondLevelCacheClusterTransport/RabbitMQCacheClusterTransport.cs:90 | an empty address means "localhost", and any other address is used as it is; the name is never empty, and has a '/' exactly when the address has one |
| `Broker.SplitVHost` | src/CustomSecondLevelCacheCluster/CustomSecondLevelCacheClusterTransport/RabbitMQCacheClusterTransport.cs:91-96 | a name with '/' splits before its first '/' into a host and a virtual host starting with '/', which rejoin to the name; otherwise the default virtual host |
| `Broker.Derive` | src/CustomSecondLevelCacheCluster/CustomSecondLevelCacheClusterTransport/RabbitMQCacheClusterTransport.cs:90-102 | the factory settings: host and virtual host as above, port 0 meaning the library default, and an empty user or password meaning the default "guest", a given one being used as it is |
| `Broker.DeriveVHost` | src/CustomSecondLevelCacheCluster/CustomSecondLevelCacheClusterTransport/RabbitMQCacheClusterTransport.cs:92-96 | an address written as host and virtual host run together splits back into both |
| `Broker.Exchange` | src/CustomSecondLevelCacheCluster/CustomSecondLevelCacheClusterTransport/RabbitMQCacheClusterTransport.cs:108-109 | the exchange is Localpath, or "TelerikL2Cache" when that is empty |
| `Broker.Connect` | src/CustomSecondLevelCacheCluster/CustomSecondLevelCacheClusterTransport/RabbitMQCacheClusterTransport.cs:84-125 | connecting always disconnects first, clearing `_isConsuming`; it holds a connection exactly when the broker is reachable, and then settles Localpath to the exchange name |
| `Broker.Init` | src/CustomSecondLevelCacheCluster/CustomSecondLevelCacheClusterTransport/RabbitMQCacheClusterTransport.cs:32-41 | Init succeeds exactly when the broker is reachable, and then consumes with a named exchange |
| `Broker.Publish` | src/CustomSecondLevelCacheCluster/CustomSecondLevelCacheClusterTransport/RabbitMQCacheClusterTransport.cs:43-56 | a send publishes exactly when the node holds a live channel, and then the body unchanged to the Localpath exchange under this node's routing key; otherwise the exception is swallowed and nothing is published |
| `Broker.Close` | src/CustomSecondLevelCacheCluster/CustomSecondLevelCacheClusterTransport/RabbitMQCacheClusterTransport.cs:58-67 | Close sets `closed`, stops consuming and drops the connection, keeping identity, address and exchange |
| `Broker.PublishDroppedWithoutConnection` | src/CustomSecondLevelCacheCluster/CustomSecondLevelCacheClusterTransport/RabbitMQCacheClusterTransport.cs:43-70 | after Close, and after a connect that failed, a send publishes nothing |
| `Broker.PublishesToOwnExchange` | src/CustomSecondLevelCacheCluster/CustomSecondLevelCacheClusterTransport/RabbitMQCacheClusterTransport.cs:108-117 | after Init a node publishes the body, under its own key, to the exchange its queue is bound to |
| `Broker.RecoverAsWritten` | src/CustomSecondLevelCacheCluster/CustomSecondLevelCacheClusterTransport/RabbitMQCacheClusterTransport.cs:167-176 | the catch block restarts consuming exactly when the reconnect succeeds, and otherwise gives up; it never stops for good |
| `Broker.ConsumeAsWritten` | src/CustomSecondLevelCacheCluster/CustomSecondLevelCacheClusterTransport/RabbitMQCacheClusterTransport.cs:134-178 | the loop acks at most one message per turn; it is still waiting exactly when every turn brought a message, and then it acked all of them; it stops for good exactly when the first turn without a message is a Close that cleared `_isConsuming` before the loop test; it restarts exactly when that turn is anything else and the broker is reachable |
| `Broker.FirstOther` | src/CustomSecondLevelCacheCluster/CustomSecondLevelCacheClusterTransport/RabbitMQCacheClusterTransport.cs:141-165 | the first turn without a message is absent exactly when every turn brought one, and otherwise is one of the turns |
| `Broker.CloseRestartsConsuming` | src/CustomSecondLevelCacheCluster/CustomSecondLevelCacheClusterTransport/RabbitMQCacheClusterTransport.cs:167-175 | as written, Close during a wait, with the broker up, starts a new consume loop |
| `Broker.ConsumeAfterMessagesAsWritten` | src/CustomSecondLevelCacheCluster/CustomSecondLevelCacheClusterTransport/RabbitMQCacheClusterTransport.cs:141-161 | messages received before a wait do not change how the loop ends |
| `Broker.FirstOtherAfterMessages` | src/CustomSecondLevelCacheCluster/CustomSecondLevelCacheClusterTransport/RabbitMQCacheClusterTransport.cs:141-161 | messages received before a turn do not change which turn is the first without a message |
| `Broker.Recover` | src/CustomSecondLevelCacheCluster/CustomSecondLevelCacheClusterTransport/RabbitMQCacheClusterTransport.cs:167-176 | corrected catch block: it stops exactly when Close ended the wait, and otherwise recovers as the code does |
| `Broker.Consume` | src/CustomSecondLevelCacheCluster/CustomSecondLevelCacheClusterTransport/RabbitMQCacheClusterTransport.cs:134-178 | corrected loop: at most one ack per turn; still waiting exactly when every turn brought a message, each one acked; it stops for good exactly when the first turn without a message was caused by Close, and restarts exactly when that turn is a timeout or an exception and the broker is reachable |
| `Broker.CloseBetweenWaitsStops` | src/CustomSecondLevelCacheCluster/CustomSecondLevelCacheClusterTransport/RabbitMQCacheClusterTransport.cs:141 | a Close that clears `_isConsuming` between two turns ends both the loop as written and the corrected loop for good, at the loop test |
| `Broker.CloseStopsConsuming` | src/CustomSecondLevelCacheCluster/CustomSecondLevelCacheClusterTransport/RabbitMQCacheClusterTransport.cs:58-67 | with the correction, Close during a wait ends consuming for good, whether the broker is up or not |
| `Broker.ConsumeAgreesWithoutClose` | src/CustomSecondLevelCacheCluster/CustomSecondLevelCacheClusterTransport/RabbitMQCacheClusterTransport.cs:134-178 | when no Close lands during a wait (a Close seen at the loop test is allowed), the corrected loop behaves exactly like the code as written |
| `Broker.ConsumeDeliversOthers` | src/CustomSecondLevelCacheCluster/CustomSecondLevelCacheClusterTransport/RabbitMQCacheClusterTransport.cs:146-160 | a consumer acks every message from the fanout exchange but hands the handler exactly the other nodes' bodies, in order |
| `Scenarios.WelcomeReadsBack` | src/CustomSecondLevelCacheCluster/CustomSecondLevelCacheClusterTransport/TcpCacheClusterTransport.cs:54-58 | the server's reply, carrying the client's identity with Welcome and length 0, is accepted by that client and reads as SentByMe |
| `Scenarios.ReadClientFrame` | src/CustomSecondLevelCacheCluster/TcpCacheClusterServer/Program.cs:163-176 | the server reads a client frame as a header with the payload's length and opcode, followed by the payload |
| `Scenarios.HelloWelcomeHandshake` | src/CustomSecondLevelCacheCluster/TcpCacheClusterServer/Program.cs:193-204 | a client's Hello is greeted under the decoded name, and the reply is one the client accepts |
| `Scenarios.EvictRelayed` | src/CustomSecondLevelCacheCluster/TcpCacheClusterServer/Program.cs:169-183 | an Evict frame is relayed byte for byte; any reader but the sender delivers its payload, and the sender counts an echo |
| `Scenarios.EvictReachesOthersOnly` | src/CustomSecondLevelCacheCluster/TcpCacheClusterServer/Program.cs:246-271 | through the server's state, the frame a partner sends is queued unchanged and reaches only the other partners |

## Left out

- Sockets, threads and the thread pool are not modelled. Neither are `Thread.Abort`/`Join`, logging, or the timing of callbacks. Their outcomes come in as parameters, and the server's callbacks run one at a time.
- `ReceiveAll` and `SendAll` (SecondLevelCacheClusterTransportBase.cs:78-118) are not modelled as loops. On the server, "fewer bytes pending than needed" stands for a failed `ReceiveAll`. On the client, a stream that ends stands for a failed read.
- A read on a partner socket the server has shut down is modelled as a disconnect.
- `IPAddress.Parse`/`TryParse`, `Encoding.UTF8` and `Guid.NewGuid` are parameters or inputs. The identity is any 16 bytes.
- The RabbitMQ client library is reduced to the answers it gives:
  - reachable or not;
  - a message, a timeout, an exception, a wait ended by Close, or a Close seen at the loop test.
  
  Queue declaration, QoS and the delegate's `BeginInvoke` are left out.
- Dispose and the finalizers are left out: they only repeat Close under a flag.
- Close setting `handler` to null is left out. So are the NullReferenceExceptions a later delivery would raise.
- String searches are ordinal throughout. The source's `IndexOf`/`LastIndexOf` with a string argument (SecondLevelCacheClusterTransportBase.cs:47-57, RabbitMQCacheClusterTransport.cs:94-95) compare by the current culture, while the `Contains` guards in front of them are ordinal. On non-ASCII input the two can disagree, and the resulting `Substring(0, -1)` exception is not modelled, because culture-aware comparison is outside the model.
- Socket calls in Init that the model does not name as a set-up outcome (socket options other than AddMembership, the UDP receive timeout) are taken to succeed.
- RDM partner sessions that are still reading after Close are left out. Their receive chains are modelled one at a time (`RdmCluster.Serve`).
- The static `Counter` of the UDP and TCP transports is threaded through the receive loop as a value, not shared between instances. The RDM and relay-client counters are not tracked.
- TcpClusterServer, TestCluster and TestClusterModel are not part of this model.
- The relay server's `Main`, its accept loop and the Ctrl-C handler are not part of this model.
- RelayServer.Run: its contract only keeps the server valid and bounds the broadcasts; numbering over a run is stated by `RelayServer.RunNumbers`.
- RelayClient.ReceiveFrames: its contract only says the loop does not end on `closed` and bounds the frames by the bytes read. What it delivers is stated by `RelayClient.ReceiveSentFrames` and `RelayClient.ReceiveLoop`.
- PrefixFraming.Listen: its contract only says when the loop keeps waiting. Counting, delivery and stopping are stated by `PrefixFraming.ListenCounts`, `PrefixFraming.ListenDeliversOthers` and `PrefixFraming.CloseStopsListening`.
- RdmCluster.Send: the model starts from a transport Init has run on. Before Init `log` is still null, so SendMessage throws NullReferenceException at RdmClusterTransport.cs:91, before the `closed` and null-socket guard; `Send` does not promise that.
- Broker.Publish: the model starts from a transport Init has run on. Before Init the channel and `log` are both null, so BasicPublish throws and the catch block's `log.LogWarning` (RabbitMQCacheClusterTransport.cs:54) throws again; `Publish` does not promise that.
- A Close that lands while the consume loop handles or acks a message is folded into `ClosedWhileWaiting`: the turn that follows fails on the closed subscription.
- RdmCluster.Serve: its contract only bounds the deliveries and says when the chain ends. What it delivers is stated by `RdmCluster.ServeDeliversOthers`.

## Findings

| source | as written | input that shows it | evidently intended | confidence | as-written member | corrected member |
|---|---|---|---|---|---|---|
| src/CustomSecondLevelCacheCluster/CustomSecondLevelCacheClusterTransport/RdmClusterTransport.cs:175-179 | `Partner.Receive` builds `MemoryStream(tmp, 16, len - 16)` with no check on `len`; for fewer than 16 bytes the count is negative and the constructor throws on a thread-pool thread | a successful read of 0 bytes (the sending node ended its session) on a node whose identity does not start with a zero byte | a length check before the stream is built, as the UDP and TCP loops make: a read of 16 bytes or fewer delivers nothing, which also stops a read of exactly 16 bytes from delivering an empty payload; the corrected model in addition ends the session on an empty read, a choice of this model (the UDP and TCP loops go round again after 0 bytes) | not executed | `RdmCluster.ReceiveAsWritten`, `RdmCluster.EmptyReadCrashes`, `RdmCluster.SixteenByteReadDiffers` | `RdmCluster.Receive`, `RdmCluster.ServeDeliversOthers` |
| src/CustomSecondLevelCacheCluster/CustomSecondLevelCacheClusterTransport/RabbitMQCacheClusterTransport.cs:167-175 | the consume loop's catch block reconnects and restarts consuming without looking at `closed`, so the exception Close causes in a waiting loop revives the transport | Close while the loop waits in `Subscription.Next`, with the broker reachable | a wait ended by Close stops consuming for good | not executed | `Broker.ConsumeAsWritten`, `Broker.CloseRestartsConsuming` | `Broker.Consume`, `Broker.CloseStopsConsuming` |

=== FILE: broker.dfy ===
/** The RabbitMQ transport, minus the client library: the routing key derived from the
    identity, the connection settings derived from the address, and the rules of the
    publish path, the consume loop and its restart. */
module Broker {
  import opened Wrappers
  import opened Text
  import opened Wire
  import Endpoint

  /** No limit on the message size. */
  const MaxMessageSize: int := -1

  /** The client library's defaults the transport falls back on. */
  const DefaultHost: string := "localhost"
  const DefaultVHost: string := "/"
  const DefaultUser: string := "guest"
  const DefaultPass: string := "guest"
  const UseDefaultPort: int := -1

  /** The fanout exchange used when `Localpath` is empty. */
  const DefaultExchange: string := "TelerikL2Cache"

  // Routing key

  predicate IsHexDigit(c: char) { '0' <= c <= '9' || 'A' <= c <= 'F' }

  function HexValue(c: char): (d: nat)
    requires IsHexDigit(c)
    ensures d < 16
  {
    if c <= '9' then (c as int) - ('0' as int) else (c as int) - ('A' as int) + 10
  }

  /** One upper-case hexadecimal digit. */
  function HexDigit(d: nat): (c: char)
    requires d < 16
    ensures IsHexDigit(c) && HexValue(c) == d
  {
    if d < 10 then (('0' as int) + d) as char else (('A' as int) + d - 10) as char
  }

  /** Byte.ToString("X2"): two upper-case hexadecimal digits, high nibble first. */
  function Hex2(b: byte): (r: string)
    ensures |r| == 2 && IsHexDigit(r[0]) && IsHexDigit(r[1])
    ensures HexValue(r[0]) * 16 + HexValue(r[1]) == b
  {
    [HexDigit(b / 16), HexDigit(b % 16)]
  }

  /** The bytes' "X2" forms joined with no separator. */
  function Hex(bytes: seq<byte>): (r: string)
    ensures |r| == 2 * |bytes|
    ensures forall i :: 0 <= i < |r| ==> IsHexDigit(r[i])
  {
    if |bytes| == 0 then "" else Hex2(bytes[0]) + Hex(bytes[1..])
  }

  /** `_localRoutingKey`: the identity as 32 upper-case hexadecimal digits. */
  function RoutingKey(me: Identity): (key: string)
    ensures |key| == 32
    ensures forall i :: 0 <= i < |key| ==> IsHexDigit(key[i])
  {
    Hex(me)
  }

  /** Reading hexadecimal digit pairs back into bytes. */
  function Unhex(s: string): (r: Option<seq<byte>>)
    ensures r.Some? ==> 2 * |r.value| == |s|
    decreases |s|
  {
    if |s| == 0 then Some([])
    else if |s| < 2 || !IsHexDigit(s[0]) || !IsHexDigit(s[1]) then None
    else match Unhex(s[2..])
      case None => None
      case Some(rest) => Some([HexValue(s[0]) * 16 + HexValue(s[1])] + rest)
  }

  /** The hexadecimal form loses nothing: the bytes can be read back from it. */
  lemma {:induction false} UnhexHex(bytes: seq<byte>)
    ensures Unhex(Hex(bytes)) == Some(bytes)
  {
    if |bytes| > 0 {
      var s := Hex(bytes);
      assert s[2..] == Hex(bytes[1..]);
      UnhexHex(bytes[1..]);
      assert [bytes[0]] + bytes[1..] == bytes;
    }
  }

  /** Distinct identities have distinct routing keys, so the key identifies the sender. */
  lemma RoutingKeyInjective(a: Identity, b: Identity)
    ensures RoutingKey(a) == RoutingKey(b) <==> a == b
  {
    UnhexHex(a);
    UnhexHex(b);
  }

  // Connection settings

  /** What ConnectToRabbitMQ hands the connection factory. */
  datatype Settings = Settings(host: string, vhost: string, port: int, user: string, password: string)

  /** The host name actually used: "localhost" when none is set. */
  function HostName(c: Endpoint.Config): (name: string)
    ensures name != ""
    ensures '/' in name <==> '/' in c.host
    ensures c.host == "" ==> name == DefaultHost
    ensures c.host != "" ==> name == c.host
  {
    if c.host == "" then
      assert forall i :: 0 <= i < |DefaultHost| ==> DefaultHost[i] != '/';
      DefaultHost
    else c.host
  }

  /** Splitting a host name before its first '/': the rest, '/' included, is the virtual
      host; with no '/', the default virtual host. */
  function SplitVHost(name: string): (r: (string, string))
    ensures '/' !in r.0
    ensures '/' !in name ==> r == (name, DefaultVHost)
    ensures '/' in name ==> r.0 + r.1 == name && |r.1| > 0 && r.1[0] == '/'
  {
    var slash := IndexOf(name, '/');
    if slash < 0 then (name, DefaultVHost)
    else
      assert name == name[..slash] + name[slash..];
      (name[..slash], name[slash..])
  }

  /** The settings derived from the address fields: an empty host means "localhost"; a
      host with a '/' is split before its first '/', the rest (the '/' included) being the
      virtual host; port 0 and empty credentials mean the library's defaults. */
  function Derive(c: Endpoint.Config): (s: Settings)
    ensures '/' !in s.host
    ensures c.host == "" ==> s.host == DefaultHost && s.vhost == DefaultVHost
    ensures '/' !in c.host && c.host != "" ==> s.host == c.host && s.vhost == DefaultVHost
    ensures '/' in c.host ==> s.host + s.vhost == c.host && s.vhost[0] == '/'
    ensures s.port == (if c.port == 0 then UseDefaultPort else c.port)
    ensures s.user != "" && s.password != ""
    ensures c.user != "" ==> s.user == c.user
    ensures c.user == "" ==> s.user == DefaultUser
    ensures c.password != "" ==> s.password == c.password
    ensures c.password == "" ==> s.password == DefaultPass
  {
    var split := SplitVHost(HostName(c));
    Settings(split.0, split.1,
             if c.port == 0 then UseDefaultPort else c.port,
             if c.user == "" then DefaultUser else c.user,
             if c.password == "" then DefaultPass else c.password)
  }

  /** An address written as host and virtual host runs together splits back into both. */
  lemma DeriveVHost(c: Endpoint.Config, host: string, vhost: string)
    requires '/' !in host && |vhost| > 0 && vhost[0] == '/'
    ensures Derive(c.(host := host + vhost)).host == host
    ensures Derive(c.(host := host + vhost)).vhost == vhost
  {
    var name := host + vhost;
    assert vhost == ['/'] + vhost[1..];
    assert name == host + ['/'] + vhost[1..];
    IndexOfSeparator(host, '/', vhost[1..]);
    assert name[..|host|] == host;
    assert name[|host|..] == vhost;
  }

  /** The exchange ConnectToRabbitMQ declares, and writes back into `Localpath`. */
  function Exchange(localpath: string): (e: string)
    ensures e != ""
    ensures localpath != "" ==> e == localpath
  {
    if localpath == "" then DefaultExchange else localpath
  }

  // Transport state

  /** The transport's state: identity, address fields, `Localpath`, the `closed` and
      `_isConsuming` flags, and whether a connection and channel are held. */
  datatype Node = Node(me: Identity, cfg: Endpoint.Config, localpath: string,
                       closed: bool, consuming: bool, connected: bool)

  /** How the broker answered CreateConnection: a connection, BrokerUnreachableException
      (caught: the connect reports failure), or any other exception (which propagates). */
  datatype Reach = Reachable | Unreachable | OtherFailure

  /** ConnectToRabbitMQ, which returns true exactly when the broker is reachable: it
      always disconnects first (clearing `_isConsuming`); on success it settles the
      exchange name and holds a connection. */
  function Connect(t: Node, reach: Reach): (r: Node)
    ensures !r.consuming
    ensures r.connected <==> reach == Reachable
    ensures reach == Reachable ==> r.localpath == Exchange(t.localpath)
    ensures reach != Reachable ==> r.localpath == t.localpath
    ensures r.me == t.me && r.cfg == t.cfg && r.closed == t.closed
  {
    var down := t.(consuming := false, connected := false);
    if reach == Reachable then down.(connected := true, localpath := Exchange(t.localpath)) else down
  }

  /** Init: connect, throwing unless it succeeded, then start consuming. */
  function Init(t: Node, reach: Reach): (r: Result<Node, Reach>)
    ensures r.Success? <==> reach == Reachable
    ensures r.Success? ==> r.value.consuming && r.value.connected && r.value.localpath != ""
    ensures r.Failure? ==> r.error == reach
  {
    var c := Connect(t, reach);
    if reach == Reachable then Result.Success(c.(consuming := true)) else Failure(reach)
  }

  /** BasicPublish's arguments: the exchange, the routing key and the body. */
  datatype Publication = Publication(exchange: string, routingKey: string, body: seq<byte>)

  /** SendMessage: publishes the body, persistent, to the `Localpath` exchange under this
      node's routing key. On a transport Init has run on, a channel aborted by Close or
      by a reconnect that failed makes BasicPublish throw; the exception is only logged
      and nothing is published, so the call does not throw. */
  function Publish(t: Node, body: seq<byte>): (p: Option<Publication>)
    ensures p.Some? <==> t.connected
    ensures p.Some? ==> p.value.routingKey == RoutingKey(t.me) && p.value.body == body
    ensures p.Some? ==> p.value.exchange == t.localpath
  {
    if t.connected then Some(Publication(t.localpath, RoutingKey(t.me), body)) else None
  }

  /** Close: sets `closed` and disconnects, which clears `_isConsuming`. */
  function Close(t: Node): (r: Node)
    ensures r.closed && !r.consuming && !r.connected
    ensures r.me == t.me && r.cfg == t.cfg && r.localpath == t.localpath
  {
    t.(closed := true, consuming := false, connected := false)
  }

  /** After Init, this node publishes the body, under its own key, to the very exchange
      it bound its queue to. */
  lemma PublishesToOwnExchange(t: Node, body: seq<byte>)
    ensures Publish(Init(t, Reachable).value, body) ==
      Some(Publication(Exchange(t.localpath), RoutingKey(t.me), body))
  {
  }

  /** After Close, and after a connect that failed, a send publishes nothing. */
  lemma PublishDroppedWithoutConnection(t: Node, body: seq<byte>, reach: Reach)
    ensures Publish(Close(t), body) == None
    ensures reach != Reachable ==> Publish(Connect(t, reach), body) == None
  {
  }

  // Consume loop

  /** One turn of the consume loop: Subscription.Next brings a message with its routing
      key and body, times out after 30 seconds, or throws; or Close disconnects while the
      loop waits (after which the closed subscription makes the wait fail); or Close has
      already cleared `_isConsuming` when the loop comes back to its test, so no wait
      starts at all. */
  datatype Wait = Arrived(routingKey: string, body: seq<byte>) | TimedOut | Threw
                | ClosedWhileWaiting | ClosedBetweenWaits

  /** Whether Close caused this turn to end the loop. */
  predicate ByClose(w: Wait) { w == ClosedWhileWaiting || w == ClosedBetweenWaits }

  /** The first turn of a series that brought no message, if any. */
  function FirstOther(waits: seq<Wait>): (w: Option<Wait>)
    ensures w.None? <==> forall i :: 0 <= i < |waits| ==> waits[i].Arrived?
    ensures w.Some? ==> !w.value.Arrived? && w.value in waits
    decreases |waits|
  {
    if |waits| == 0 then None
    else if waits[0].Arrived? then FirstOther(waits[1..])
    else Some(waits[0])
  }

  /** Messages before a turn do not change which turn is the first without one. */
  lemma {:induction false} FirstOtherAfterMessages(arrived: seq<Wait>, more: seq<Wait>)
    requires forall i :: 0 <= i < |arrived| ==> arrived[i].Arrived?
    ensures FirstOther(arrived + more) == FirstOther(more)
    decreases |arrived|
  {
    if |arrived| > 0 {
      assert (arrived + more)[0] == arrived[0];
      assert (arrived + more)[1..] == arrived[1..] + more;
      FirstOtherAfterMessages(arrived[1..], more);
    } else {
      assert arrived + more == more;
    }
  }

  /** How a consume loop ended: stopped for good, replaced by a new loop after a
      reconnect, given up because the reconnect failed, or still waiting. */
  datatype ConsumeEnd = Stopped | Restarted | GaveUp | Waiting

  /** The bodies handed to the handler, the number of messages acked, and the end. */
  datatype Consumed = Consumed(delivered: seq<seq<byte>>, acked: nat, end: ConsumeEnd)

  /** The catch block as written: whatever went wrong, reconnect, and on success start a
      new consume loop; either way this loop ends. */
  function RecoverAsWritten(reach: Reach): (e: ConsumeEnd)
    ensures e == Restarted <==> reach == Reachable
    ensures e != Waiting && e != Stopped
  {
    if reach == Reachable then Restarted else GaveUp
  }

  /** ConsumeMessages as written: a message is handed to the handler unless it carries
      this node's routing key, and is acked either way; a cleared `_isConsuming` ends the
      loop at its test; a timeout, an exception or a wait ended by Close all go to the
      catch block, which reconnects without looking at `closed`. */
  function ConsumeAsWritten(key: string, waits: seq<Wait>, reach: Reach): (r: Consumed)
    ensures r.acked <= |waits|
    ensures r.end == Waiting <==> forall i :: 0 <= i < |waits| ==> waits[i].Arrived?
    ensures r.end == Waiting ==> r.acked == |waits|
    ensures r.end == Stopped <==> FirstOther(waits) == Some(ClosedBetweenWaits)
    ensures r.end == Restarted <==>
      FirstOther(waits).Some? && FirstOther(waits) != Some(ClosedBetweenWaits) && reach == Reachable
    decreases |waits|
  {
    if |waits| == 0 then Consumed([], 0, Waiting)
    else match waits[0]
      case Arrived(routingKey, body) =>
        var rest := ConsumeAsWritten(key, waits[1..], reach);
        Consumed((if routingKey != key then [body] else []) + rest.delivered, rest.acked + 1, rest.end)
      case ClosedBetweenWaits => Consumed([], 0, Stopped)
      case _ => Consumed([], 0, RecoverAsWritten(reach))
  }

  /** The input that shows it: Close while the loop waits, with the broker still up, and
      the transport starts consuming again. */
  lemma CloseRestartsConsuming(key: string, arrived: seq<Wait>, later: seq<Wait>)
    requires forall i :: 0 <= i < |arrived| ==> arrived[i].Arrived?
    ensures ConsumeAsWritten(key, arrived + [ClosedWhileWaiting] + later, Reachable).end == Restarted
  {
    ConsumeAfterMessagesAsWritten(key, arrived, [ClosedWhileWaiting] + later, Reachable);
    assert ([ClosedWhileWaiting] + later)[0] == ClosedWhileWaiting;
    assert arrived + [ClosedWhileWaiting] + later == arrived + ([ClosedWhileWaiting] + later);
  }

  /** Messages before a wait do not change how the loop ends. */
  lemma {:induction false} ConsumeAfterMessagesAsWritten(key: string, arrived: seq<Wait>, more: seq<Wait>, reach: Reach)
    requires forall i :: 0 <= i < |arrived| ==> arrived[i].Arrived?
    ensures ConsumeAsWritten(key, arrived + more, reach).end == ConsumeAsWritten(key, more, reach).end
    decreases |arrived|
  {
    if |arrived| > 0 {
      assert arrived[0].Arrived?;
      assert (arrived + more)[0] == arrived[0];
      assert (arrived + more)[1..] == arrived[1..] + more;
      ConsumeAfterMessagesAsWritten(key, arrived[1..], more, reach);
    } else {
      assert arrived + more == more;
    }
  }

  /** The catch block with a `closed` test: a wait ended by Close stops the loop for good;
      anything else reconnects as before. */
  function Recover(wait: Wait, reach: Reach): (e: ConsumeEnd)
    requires !wait.Arrived?
    ensures wait == ClosedWhileWaiting <==> e == Stopped
    ensures wait != ClosedWhileWaiting ==> e == RecoverAsWritten(reach)
  {
    if wait == ClosedWhileWaiting then Stopped else RecoverAsWritten(reach)
  }

  /** ConsumeMessages with the corrected catch block. */
  function Consume(key: string, waits: seq<Wait>, reach: Reach): (r: Consumed)
    ensures r.acked <= |waits|
    ensures r.end == Waiting <==> forall i :: 0 <= i < |waits| ==> waits[i].Arrived?
    ensures r.end == Waiting ==> r.acked == |waits|
    ensures r.end == Stopped <==> FirstOther(waits).Some? && ByClose(FirstOther(waits).value)
    ensures r.end == Restarted <==>
      FirstOther(waits).Some? && !ByClose(FirstOther(waits).value) && reach == Reachable
    decreases |waits|
  {
    if |waits| == 0 then Consumed([], 0, Waiting)
    else match waits[0]
      case Arrived(routingKey, body) =>
        var rest := Consume(key, waits[1..], reach);
        Consumed((if routingKey != key then [body] else []) + rest.delivered, rest.acked + 1, rest.end)
      case ClosedBetweenWaits => Consumed([], 0, Stopped)
      case _ => Consumed([], 0, Recover(waits[0], reach))
  }

  /** A Close that clears `_isConsuming` between two turns ends both loops for good: the
      loop test sees it before any catch block runs. */
  lemma CloseBetweenWaitsStops(key: string, arrived: seq<Wait>, later: seq<Wait>, reach: Reach)
    requires forall i :: 0 <= i < |arrived| ==> arrived[i].Arrived?
    ensures ConsumeAsWritten(key, arrived + [ClosedBetweenWaits] + later, reach).end == Stopped
    ensures Consume(key, arrived + [ClosedBetweenWaits] + later, reach).end == Stopped
  {
    FirstOtherAfterMessages(arrived, [ClosedBetweenWaits] + later);
    assert arrived + [ClosedBetweenWaits] + later == arrived + ([ClosedBetweenWaits] + later);
    assert ([ClosedBetweenWaits] + later)[0] == ClosedBetweenWaits;
  }

  /** With the correction, Close while the loop waits ends consuming, broker up or not. */
  lemma {:induction false} CloseStopsConsuming(key: string, arrived: seq<Wait>, later: seq<Wait>, reach: Reach)
    requires forall i :: 0 <= i < |arrived| ==> arrived[i].Arrived?
    ensures Consume(key, arrived + [ClosedWhileWaiting] + later, reach).end == Stopped
    decreases |arrived|
  {
    if |arrived| == 0 {
      assert (arrived + [ClosedWhileWaiting] + later)[0] == ClosedWhileWaiting;
    } else {
      assert (arrived + [ClosedWhileWaiting] + later)[0] == arrived[0];
      assert (arrived + [ClosedWhileWaiting] + later)[1..] == arrived[1..] + [ClosedWhileWaiting] + later;
      CloseStopsConsuming(key, arrived[1..], later, reach);
    }
  }

  /** Away from Close the two loops agree. */
  lemma {:induction false} ConsumeAgreesWithoutClose(key: string, waits: seq<Wait>, reach: Reach)
    requires forall i :: 0 <= i < |waits| ==> waits[i] != ClosedWhileWaiting
    ensures Consume(key, waits, reach) == ConsumeAsWritten(key, waits, reach)
    decreases |waits|
  {
    if |waits| > 0 && waits[0].Arrived? {
      ConsumeAgreesWithoutClose(key, waits[1..], reach);
    }
  }

  /** The messages published by a series of nodes, as a consumer receives them from the
      fanout exchange. */
  function Arrivals(sent: seq<(Identity, seq<byte>)>): (waits: seq<Wait>)
    ensures |waits| == |sent|
  {
    seq(|sent|, i requires 0 <= i < |sent| => Arrived(RoutingKey(sent[i].0), sent[i].1))
  }

  /** The bodies published by nodes other than `me`, in order. */
  function FromOthers(me: Identity, sent: seq<(Identity, seq<byte>)>): (bodies: seq<seq<byte>>)
    ensures |bodies| <= |sent|
  {
    if |sent| == 0 then []
    else (if sent[0].0 != me then [sent[0].1] else []) + FromOthers(me, sent[1..])
  }

  /** Every node receives every publication (fanout) and acks them all, but hands the
      handler exactly the bodies published by the other nodes, in order. */
  lemma {:induction false} ConsumeDeliversOthers(me: Identity, sent: seq<(Identity, seq<byte>)>, reach: Reach)
    ensures Consume(RoutingKey(me), Arrivals(sent), reach).delivered == FromOthers(me, sent)
    ensures Consume(RoutingKey(me), Arrivals(sent), reach).acked == |sent|
    ensures Consume(RoutingKey(me), Arrivals(sent), reach).end == Waiting
    decreases |sent|
  {
    if |sent| > 0 {
      RoutingKeyInjective(sent[0].0, me);
      assert Arrivals(sent)[1..] == Arrivals(sent[1..]);
      ConsumeDeliversOthers(me, sent[1..], reach);
    }
  }
}

=== FILE: endpoint.dfy ===
/** The base class's `Multicastaddr` property: `[user[:password]@]host:port`.
    Null fields are represented by the empty string; every reader of them
    (IsNullOrEmpty, concatenation) treats null and "" alike. */
module Endpoint {
  import opened Wrappers
  import opened Text

  datatype Config = Config(host: string, port: int, user: string, password: string)

  /** A fresh transport before the property is set: every field null or 0. */
  const Unset: Config := Config("", 0, "", "")

  /** Assigning the property either completes, or throws after having written the
      fields listed in `cfg` (the setter writes fields as it goes). */
  datatype Assigned = Done(cfg: Config) | Threw(cfg: Config)

  /** The credentials part of the getter: user and password joined by ':', skipping empty ones. */
  function Credentials(c: Config): string {
    if c.user != "" && c.password != "" then c.user + ":" + c.password
    else if c.user != "" then c.user
    else c.password
  }

  /** The getter: `host:port`, prefixed by `credentials@` when there are credentials.
      What the setter looks for in it: the port is the text after the last ':', and
      an '@' appears exactly when there are credentials or the host has one. */
  function Format(c: Config): (r: string)
    ensures var k := LastIndexOf(r, ':');
      0 <= k && r[k + 1..] == IntToString(c.port)
    ensures '@' in r <==> Credentials(c) != "" || '@' in c.host
  {
    var credentials := Credentials(c);
    var address := if credentials != "" then credentials + "@" + c.host else c.host;
    var port := IntToString(c.port);
    LastIndexOfSeparator(address, ':', port);
    assert credentials != "" ==> address[|credentials|] == '@';
    address + ":" + port
  }

  /** The setter. The port is the text after the last ':' and is parsed first (with no ':'
      the whole value is parsed, and Substring(0, -1) throws afterwards); the rest is the
      address, which may carry credentials. */
  function Assign(c: Config, value: string): (r: Assigned)
    ensures ':' !in value ==> r.Threw?
    ensures r.Done? ==> ParseInt32(value[LastIndexOf(value, ':') + 1..]) == Some(r.cfg.port)
    ensures r.Done? ==> '@' !in r.cfg.host
    ensures '@' !in value ==> r.cfg.user == c.user && r.cfg.password == c.password
  {
    var pos := LastIndexOf(value, ':');
    var port := ParseInt32(value[pos + 1..]);
    if port.None? then Threw(c)
    else if pos < 0 then Threw(c.(port := port.value))
    else
      assert '@' !in value ==> '@' !in value[..pos];
      Done(ApplyAddress(c.(port := port.value), value[..pos]))
  }

  /** The address part of the setter: credentials are the text before the last '@',
      split at their first ':'; the host is what follows that '@'. User and password
      are only ever overwritten, never cleared. */
  function ApplyAddress(c: Config, address: string): (r: Config)
    ensures r.port == c.port && '@' !in r.host
    ensures '@' !in address ==> r == c.(host := address)
  {
    if address != "" && '@' in address then
      var at := LastIndexOf(address, '@');
      ApplyCredentials(c, address[..at]).(host := address[at + 1..])
    else c.(host := address)
  }

  function ApplyCredentials(c: Config, credentials: string): (r: Config)
    ensures r.host == c.host && r.port == c.port
  {
    if credentials == "" then c
    else if ':' in credentials then
      var k := IndexOf(credentials, ':');
      c.(user := credentials[..k], password := credentials[k + 1..])
    else c.(user := credentials)
  }

  /** The configurations the getter writes in a form the setter reads back exactly. */
  predicate RoundTrips(c: Config) {
    && IsInt32(c.port)
    && '@' !in c.host
    && ((c.user == "" && c.password == "") || (c.user != "" && ':' !in c.user))
  }

  /** Splitting `address:port` at its last ':' gives back both parts. */
  lemma AssignAddressPort(c: Config, address: string, port: int)
    requires IsInt32(port)
    ensures Assign(c, address + ":" + IntToString(port)) == Done(ApplyAddress(c.(port := port), address))
  {
    var portText := IntToString(port);
    var value := address + ":" + portText;
    assert value == address + [':'] + portText;
    LastIndexOfSeparator(address, ':', portText);
    assert value[|address| + 1..] == portText;
    assert value[..|address|] == address;
    ParseIntToString(port);
  }

  /** Formatting then re-parsing into the same object recovers host, port, user and password. */
  lemma AssignFormat(c: Config)
    requires RoundTrips(c)
    ensures Assign(c, Format(c)) == Done(c)
  {
    var cred := Credentials(c);
    var address := if cred != "" then cred + "@" + c.host else c.host;
    assert Format(c) == address + ":" + IntToString(c.port);
    AssignAddressPort(c, address, c.port);
    if cred != "" {
      ApplyCredentialAddress(c, cred);
      CredentialsRoundTrip(c);
    }
  }

  /** The host after the last '@' and the credentials before it. */
  lemma ApplyCredentialAddress(c: Config, cred: string)
    requires cred != "" && '@' !in c.host
    ensures ApplyAddress(c, cred + "@" + c.host) == ApplyCredentials(c, cred).(host := c.host)
  {
    var address := cred + "@" + c.host;
    assert address == cred + ['@'] + c.host;
    LastIndexOfSeparator(cred, '@', c.host);
    assert address[..|cred|] == cred;
    assert address[|cred| + 1..] == c.host;
  }

  /** The credentials the getter writes split back into the same user and password. */
  lemma CredentialsRoundTrip(c: Config)
    requires RoundTrips(c) && Credentials(c) != ""
    ensures ApplyCredentials(c, Credentials(c)) == c
  {
    var cred := Credentials(c);
    if c.password != "" {
      assert cred == c.user + [':'] + c.password;
      IndexOfSeparator(c.user, ':', c.password);
      assert cred[..|c.user|] == c.user;
      assert cred[|c.user| + 1..] == c.password;
    }
  }

  /** A value without '@' leaves stale credentials in place: the setter never clears them. */
  lemma CredentialsAreSticky(c: Config, host: string, port: int)
    requires IsInt32(port) && '@' !in host
    ensures Assign(c, host + ":" + IntToString(port)) == Done(c.(host := host, port := port))
  {
    AssignAddressPort(c, host, port);
  }

  /** A value without ':' whose whole text is a number still writes the port before throwing. */
  lemma NoColonWritesPort(c: Config, value: string)
    requires ':' !in value && ParseInt32(value).Some?
    ensures Assign(c, value) == Threw(c.(port := ParseInt32(value).value))
  {
    assert value[0..] == value;
  }
}

=== FILE: prefix_framing.dfy ===
/** What the UDP multicast, plain TCP and RDM transports have in common: a `host:port`
    address split at its first ':', the check Init makes before opening sockets, and
    datagrams framed as the sender's 16-byte identity followed by the payload, with a
    receiver that drops short datagrams and its own ones. */
module PrefixFraming {
  import opened Wrappers
  import opened Text
  import opened Wire

  /** The `multicastAddress` and `multicastPort` fields; a null address is "". */
  datatype Address = Address(host: string, port: int)

  /** A fresh transport: no address, port 0. */
  const Unset: Address := Address("", 0)

  /** Assigning `Multicastaddr` either completes, or throws after having written
      whatever `addr` shows. */
  datatype Assigned = Done(addr: Address) | Threw(addr: Address)

  /** The getter: the host, ':' and the port in decimal. */
  function Format(a: Address): string {
    a.host + ":" + IntToString(a.port)
  }

  /** The setter. The host is the text before the first ':' and is written before the
      port is parsed from the rest; with no ':' at all, Substring(0, -1) throws before
      anything is written. */
  function Assign(a: Address, value: string): (r: Assigned)
    ensures ':' !in value ==> r == Threw(a)
    ensures ':' in value ==> r.addr.host == value[..IndexOf(value, ':')] && ':' !in r.addr.host
    ensures r.Done? <==> ':' in value && ParseInt32(value[IndexOf(value, ':') + 1..]).Some?
    ensures r.Done? ==> ParseInt32(value[IndexOf(value, ':') + 1..]) == Some(r.addr.port)
    ensures r.Threw? ==> r.addr.port == a.port
  {
    var pos := IndexOf(value, ':');
    if pos < 0 then Threw(a)
    else
      var hosted := a.(host := value[..pos]);
      var port := ParseInt32(value[pos + 1..]);
      if port.None? then Threw(hosted) else Done(hosted.(port := port.value))
  }

  /** Formatting then assigning recovers the address, whatever the object held before,
      as long as the host has no ':' and the port is an Int32. */
  lemma AssignFormat(before: Address, a: Address)
    requires ':' !in a.host && IsInt32(a.port)
    ensures Assign(before, Format(a)) == Done(a)
  {
    var value := Format(a);
    assert value == a.host + [':'] + IntToString(a.port);
    IndexOfSeparator(a.host, ':', IntToString(a.port));
    assert value[..|a.host|] == a.host;
    assert value[|a.host| + 1..] == IntToString(a.port);
    ParseIntToString(a.port);
  }

  /** A second ':' (an IPv6 literal, say) ends up in the port text, which fails to parse:
      the setter throws, but only after the host before the first ':' has been written. */
  lemma SecondColonThrows(before: Address, host: string, rest: string)
    requires ':' !in host && ':' in rest
    ensures Assign(before, host + ":" + rest) == Threw(before.(host := host))
  {
    var value := host + ":" + rest;
    assert value == host + [':'] + rest;
    IndexOfSeparator(host, ':', rest);
    assert value[..|host|] == host;
    assert value[|host| + 1..] == rest;
    ParseRejectsColon(rest);
  }

  /** How Init ends before any socket work: ArgumentException("Missing MulticastAddress
      setting."), the FormatException of IPAddress.Parse, or going on to open the sockets. */
  datatype InitOutcome = MissingAddress | BadAddress | Opening

  /** Why Init threw: the address check rejected the address, or a socket call made
      after the check passed threw. */
  datatype InitFailure = Rejected(check: InitOutcome) | SetupFailed

  /** Init's checks. IPAddress.Parse is not modelled; `parsesAsIp` says which hosts it accepts. */
  function InitCheck(a: Address, parsesAsIp: string -> bool): (r: InitOutcome)
    ensures r == MissingAddress <==> IsNullOrWhiteSpace(a.host) || a.port <= 0
    ensures r == Opening <==> !IsNullOrWhiteSpace(a.host) && a.port > 0 && parsesAsIp(a.host)
  {
    if IsNullOrWhiteSpace(a.host) || a.port <= 0 then MissingAddress
    else if !parsesAsIp(a.host) then BadAddress
    else Opening
  }

  /** An address that was never set, or whose assignment threw for want of a ':',
      makes Init throw the missing-address exception. */
  lemma UnsetCannotInit(value: string, parsesAsIp: string -> bool)
    requires ':' !in value
    ensures Assign(Unset, value).Threw?
    ensures InitCheck(Assign(Unset, value).addr, parsesAsIp) == MissingAddress
  {
  }

  /** An address assigned from a formatted one passes Init exactly when the original did. */
  lemma InitAfterAssign(before: Address, a: Address, parsesAsIp: string -> bool)
    requires ':' !in a.host && IsInt32(a.port)
    ensures InitCheck(Assign(before, Format(a)).addr, parsesAsIp) == InitCheck(a, parsesAsIp)
  {
    AssignFormat(before, a);
  }

  /** The datagram SendMessage builds: the identity, then the payload. */
  function Frame(me: Identity, payload: seq<byte>): (r: seq<byte>)
    ensures |r| == |payload| + IdentityLength
    ensures IsFrom(r, me)
    ensures r[IdentityLength..] == payload
  {
    me + payload
  }

  /** What SendMessage offered to the socket, and whether it threw
      InvalidOperationException("Socket did not send all bytes."). */
  datatype Sent = Sent(offered: seq<byte>, threw: bool)

  /** SendMessage on the UDP and plain TCP transports, with `accepted` the count
      Socket.Send returned: any count but the whole datagram throws. */
  function SendMessage(me: Identity, payload: seq<byte>, accepted: int): (r: Sent)
    ensures |r.offered| == |payload| + IdentityLength
    ensures r.offered[..IdentityLength] == me && r.offered[IdentityLength..] == payload
    ensures r.threw <==> accepted != |payload| + IdentityLength
  {
    var dup := Frame(me, payload);
    Sent(dup, accepted != |dup|)
  }

  /** What a receive loop does with the `i` bytes one Receive filled in. */
  datatype Verdict = Ignored | OwnEviction | Deliver(payload: seq<byte>)

  /** The receive filter: at most 16 bytes are ignored; otherwise a datagram carrying this
      node's identity is only logged, and any other hands bytes [16, i) to the handler. */
  function Filter(me: Identity, received: seq<byte>): (r: Verdict)
    ensures r.Ignored? <==> |received| <= IdentityLength
    ensures r.OwnEviction? <==> |received| > IdentityLength && IsFrom(received, me)
    ensures r.Deliver? ==> |r.payload| > 0 && r.payload == received[IdentityLength..]
  {
    if |received| <= IdentityLength then Ignored
    else if IsFrom(received, me) then OwnEviction
    else Deliver(received[IdentityLength..])
  }

  /** Framing round trip: a receiver gets back exactly the payload another node framed,
      drops its own datagrams, and drops an empty payload altogether. */
  lemma FilterFrame(me: Identity, sender: Identity, payload: seq<byte>)
    ensures Filter(me, Frame(sender, payload)) ==
      if payload == [] then Ignored
      else if sender == me then OwnEviction
      else Deliver(payload)
  {
    var f := Frame(sender, payload);
    assert f[..IdentityLength] == sender;
  }

  /** The error code Receive reports (the values the loops tell apart, and the rest). */
  datatype SocketError = Success | TimedOut | Interrupted | OperationAborted | OtherError

  /** One turn of a receive loop: Receive returned with an error code and the bytes it
      filled in, Receive threw a SocketException, or Close on another thread set `closed`. */
  datatype Tick = Receive(error: SocketError, data: seq<byte>) | Thrown | CloseCalled

  /** Why a loop stopped: `closed` was seen set, an interrupt or abort broke out, or the
      ticks ran out with the loop still waiting. */
  datatype LoopEnd = ClosedFlag | Broke | Waiting

  /** The payloads handed to the handler in order, the own datagrams only logged, the
      static `Counter` afterwards, and how the loop ended. */
  datatype Listened = Listened(delivered: seq<seq<byte>>, echoes: nat, counter: int, end: LoopEnd)

  /** The receive loop of the UDP and plain TCP transports over a sequence of ticks:
      `closed` is checked before each Receive, a timeout or a SocketException goes round
      again, an interrupt or an abort breaks out, any other error makes Receive return 0
      bytes so the length test skips it, and every delivery increments `Counter` with
      Int32 wrap-around. */
  function Listen(me: Identity, ticks: seq<Tick>, counter: int): (r: Listened)
    ensures r.end == Waiting <==> forall i :: 0 <= i < |ticks| ==> !Stops(ticks[i])
    decreases |ticks|
  {
    if |ticks| == 0 then Listened([], 0, counter, Waiting)
    else match ticks[0]
      case CloseCalled => Listened([], 0, counter, ClosedFlag)
      case Thrown => Listen(me, ticks[1..], counter)
      case Receive(error, data) =>
        if error == TimedOut then Listen(me, ticks[1..], counter)
        else if error == Interrupted || error == OperationAborted then Listened([], 0, counter, Broke)
        else if error != SocketError.Success then Listen(me, ticks[1..], counter)
        else match Filter(me, data)
          case Ignored => Listen(me, ticks[1..], counter)
          case OwnEviction =>
            var rest := Listen(me, ticks[1..], counter);
            rest.(echoes := rest.echoes + 1)
          case Deliver(payload) =>
            var rest := Listen(me, ticks[1..], Wrap32(counter + 1));
            rest.(delivered := [payload] + rest.delivered)
  }

  /** A Receive that reported an error other than an interrupt or an abort delivers
      nothing and counts nothing, whatever its buffer held: the loop goes on as if it
      had not happened. */
  lemma ErrorDeliversNothing(me: Identity, error: SocketError, data: seq<byte>, rest: seq<Tick>, counter: int)
    requires error != SocketError.Success && error !in {Interrupted, OperationAborted}
    ensures Listen(me, [Receive(error, data)] + rest, counter) == Listen(me, rest, counter)
  {
    assert ([Receive(error, data)] + rest)[1..] == rest;
  }

  /** Whether a tick ends the loop: Close was called, or Receive was interrupted or aborted. */
  predicate Stops(t: Tick) {
    t.CloseCalled? || (t.Receive? && t.error in {Interrupted, OperationAborted})
  }

  /** `Counter` advances by one per delivered payload, wrapping like an Int32. */
  lemma {:induction false} ListenCounts(me: Identity, ticks: seq<Tick>, counter: int)
    requires IsInt32(counter)
    ensures Listen(me, ticks, counter).counter == Wrap32(counter + |Listen(me, ticks, counter).delivered|)
    decreases |ticks|
  {
    if |ticks| == 0 {
    } else if ticks[0].Receive? && ticks[0].error == SocketError.Success {
      var v := Filter(me, ticks[0].data);
      if v.Deliver? {
        ListenCounts(me, ticks[1..], Wrap32(counter + 1));
        WrapShift(counter + 1, |Listen(me, ticks[1..], Wrap32(counter + 1)).delivered|);
      } else {
        ListenCounts(me, ticks[1..], counter);
      }
    } else if ticks[0].Thrown? || (ticks[0].Receive? && ticks[0].error !in {Interrupted, OperationAborted}) {
      ListenCounts(me, ticks[1..], counter);
    }
  }

  /** Once Close has set `closed`, nothing that happens afterwards is delivered. */
  lemma {:induction false} CloseStopsListening(me: Identity, before: seq<Tick>, after: seq<Tick>, counter: int)
    ensures Listen(me, before + [CloseCalled] + after, counter) == Listen(me, before + [CloseCalled], counter)
    decreases |before|
  {
    if |before| == 0 {
      assert (before + [CloseCalled] + after)[0] == CloseCalled;
    } else {
      assert (before + [CloseCalled] + after)[1..] == before[1..] + [CloseCalled] + after;
      assert (before + [CloseCalled])[1..] == before[1..] + [CloseCalled];
      var c' := if Delivers(me, before[0]) then Wrap32(counter + 1) else counter;
      CloseStopsListening(me, before[1..], after, c');
    }
  }

  /** Whether a tick hands a payload to the handler. */
  predicate Delivers(me: Identity, t: Tick) {
    t.Receive? && t.error == SocketError.Success && Filter(me, t.data).Deliver?
  }

  /** One datagram as it leaves a node: the sender's identity and its payload. */
  datatype Datagram = Datagram(sender: Identity, payload: seq<byte>)

  /** The payloads a node should receive from a series of datagrams: those of other
      nodes, in order, leaving out empty ones. */
  function FromOthers(me: Identity, sent: seq<Datagram>): (r: seq<seq<byte>>)
    ensures |r| <= |sent|
  {
    if |sent| == 0 then []
    else
      var d := sent[0];
      (if d.sender != me && d.payload != [] then [d.payload] else []) + FromOthers(me, sent[1..])
  }

  /** The ticks of a loop that receives each datagram whole and without error. */
  function Arrivals(sent: seq<Datagram>): (ticks: seq<Tick>)
    ensures |ticks| == |sent|
  {
    seq(|sent|, i requires 0 <= i < |sent| => Receive(SocketError.Success, Frame(sent[i].sender, sent[i].payload)))
  }

  /** Receiving every datagram whole delivers exactly the other nodes' non-empty payloads,
      in the order they were sent, and logs this node's own ones. */
  lemma {:induction false} ListenDeliversOthers(me: Identity, sent: seq<Datagram>, counter: int)
    ensures Listen(me, Arrivals(sent), counter).delivered == FromOthers(me, sent)
    ensures Listen(me, Arrivals(sent), counter).end == Waiting
    decreases |sent|
  {
    if |sent| > 0 {
      var d := sent[0];
      FilterFrame(me, d.sender, d.payload);
      assert Arrivals(sent)[1..] == Arrivals(sent[1..]);
      ListenDeliversOthers(me, sent[1..], counter);
      ListenDeliversOthers(me, sent[1..], Wrap32(counter + 1));
    }
  }
}

=== FILE: rdm_cluster.dfy ===
/** The reliable-multicast (RDM/PGM) transport: a guarded send path, a Close that drops
    both sockets, an accept loop, and one receive chain per accepted sender session. */
module RdmCluster {
  import opened Wrappers
  import opened Wire
  import opened PrefixFraming
  import opened TransportBase

  /** The largest payload, and the size of each receive buffer. */
  const MaxMessageSize: nat := 65000

  /** The transport's state: identity, address, the `closed` flag and the two sockets
      (absent until Init, and again after a successful Close). */
  datatype Rdm = Rdm(me: Identity, addr: Address, closed: bool, sender: Option<Socket>, receiver: Option<Socket>)

  /** How Init's socket calls went: all of them worked; the PGM socket could not be
      created (the protocol is not installed), so nothing was assigned; the sender's
      Connect threw; the receiver's construction threw, so the receiver was never
      assigned; or the receiver's Bind, Listen or BeginAccept threw. */
  datatype Setup = SetUp | NoPgm | SenderThrew | ReceiverNotCreated | ReceiverThrew

  /** The transport after Init, and why Init threw, if it did. */
  datatype Started = Started(t: Rdm, failure: Option<InitFailure>)

  /** Init: the address check, then the sender is created and connected, then the
      receiver is created, bound, listens and starts accepting. A socket whose set-up
      call threw after its construction stays assigned but unusable. */
  function Init(t: Rdm, parsesAsIp: string -> bool, setup: Setup): (r: Started)
    ensures InitCheck(t.addr, parsesAsIp) != Opening ==>
      r == Started(t, Some(Rejected(InitCheck(t.addr, parsesAsIp))))
    ensures r.failure.None? <==> InitCheck(t.addr, parsesAsIp) == Opening && setup == SetUp
    ensures r.failure == Some(SetupFailed) <==> InitCheck(t.addr, parsesAsIp) == Opening && setup != SetUp
    ensures r.t.me == t.me && r.t.addr == t.addr && r.t.closed == t.closed
    ensures InitCheck(t.addr, parsesAsIp) == Opening ==>
      && r.t.sender == (match setup
                        case NoPgm => t.sender
                        case SenderThrew => Some(Unready)
                        case _ => Some(Open))
      && r.t.receiver == (match setup
                          case SetUp => Some(Open)
                          case ReceiverThrew => Some(Unready)
                          case _ => t.receiver)
  {
    var check := InitCheck(t.addr, parsesAsIp);
    if check != Opening then Started(t, Some(Rejected(check)))
    else match setup
      case SetUp => Started(t.(sender := Some(Open), receiver := Some(Open)), None)
      case NoPgm => Started(t, Some(SetupFailed))
      case SenderThrew => Started(t.(sender := Some(Unready)), Some(SetupFailed))
      case ReceiverNotCreated => Started(t.(sender := Some(Open)), Some(SetupFailed))
      case ReceiverThrew => Started(t.(sender := Some(Open), receiver := Some(Unready)), Some(SetupFailed))
  }

  /** SendMessage: only while not closed and with a sender socket does it send at all;
      otherwise the call silently does nothing. On a connected sender the framed payload
      is offered (and a short send throws); a sender that never connected throws. */
  function Send(t: Rdm, payload: seq<byte>, accepted: int): (r: Sent)
    ensures t.closed || t.sender.None? ==> r == Sent([], false)
    ensures !t.closed && t.sender == Some(Open) ==> r.offered == Frame(t.me, payload)
    ensures !t.closed && t.sender == Some(Open) ==> (r.threw <==> accepted != |payload| + IdentityLength)
    ensures !t.closed && t.sender.Some? && t.sender != Some(Open) ==> r == Sent([], true)
  {
    if t.closed || t.sender.None? then Sent([], false)
    else if t.sender == Some(Open) then SendMessage(t.me, payload, accepted)
    else Sent([], true)
  }

  /** Without PGM, Init throws and leaves a fresh transport's sockets null, so every
      send is silently dropped; when the sender's Connect throws, every send throws; when
      only the receiver could not be created, sends still go out. */
  lemma SetupFailureAndSend(t: Rdm, parsesAsIp: string -> bool, payload: seq<byte>, accepted: int)
    requires InitCheck(t.addr, parsesAsIp) == Opening && !t.closed && t.sender.None?
    ensures Send(Init(t, parsesAsIp, NoPgm).t, payload, accepted) == Sent([], false)
    ensures Send(Init(t, parsesAsIp, SenderThrew).t, payload, accepted) == Sent([], true)
    ensures Send(Init(t, parsesAsIp, ReceiverNotCreated).t, payload, accepted).offered == Frame(t.me, payload)
  {
  }

  /** Close: sets `closed`, then shuts down, closes and forgets each socket; a socket whose
      Shutdown throws (the exception is swallowed) is kept as it was. Shutdown always
      throws on a socket that never connected or listened; on a working one the flag
      says whether it threw. */
  function Close(t: Rdm, senderShutdownFails: bool, receiverShutdownFails: bool): (r: Rdm)
    ensures r.closed && r.me == t.me && r.addr == t.addr
    ensures r.sender == (if senderShutdownFails || t.sender == Some(Unready) then t.sender else None)
    ensures r.receiver == (if receiverShutdownFails || t.receiver == Some(Unready) then t.receiver else None)
    ensures t.sender == Some(Unready) ==> r.sender == Some(Unready)
    ensures t.receiver == Some(Unready) ==> r.receiver == Some(Unready)
  {
    t.(closed := true,
       sender := if senderShutdownFails || t.sender == Some(Unready) then t.sender else None,
       receiver := if receiverShutdownFails || t.receiver == Some(Unready) then t.receiver else None)
  }

  /** After Close, whatever Shutdown did, SendMessage neither sends nor throws. */
  lemma SendAfterCloseIsSilent(t: Rdm, senderFails: bool, receiverFails: bool, payload: seq<byte>, accepted: int)
    ensures Send(Close(t, senderFails, receiverFails), payload, accepted) == Sent([], false)
  {
  }

  /** How EndAccept and the calls after it went in OnAccept: all worked; the accept was
      reported as not completed; EndAccept or the Partner constructor threw; or the partner
      was queued and the next BeginAccept threw. */
  datatype AcceptOutcome = Accepted | NotCompleted | AcceptThrew | ReacceptThrew

  /** The transport after OnAccept, whether a partner's receive chain was queued, and
      whether another accept is pending. */
  datatype AfterAccept = AfterAccept(t: Rdm, partnerStarted: bool, accepting: bool)

  /** OnAccept: a completed accept starts a partner and accepts again; an exception closes
      the whole transport (a partner already queued keeps running); an accept reported as
      not completed stops accepting. */
  function OnAccept(t: Rdm, outcome: AcceptOutcome, senderFails: bool, receiverFails: bool): (r: AfterAccept)
    ensures r.partnerStarted <==> outcome == Accepted || outcome == ReacceptThrew
    ensures r.accepting <==> outcome == Accepted
    ensures outcome == AcceptThrew || outcome == ReacceptThrew ==> r.t == Close(t, senderFails, receiverFails)
    ensures outcome == Accepted || outcome == NotCompleted ==> r.t == t
  {
    match outcome
    case Accepted => AfterAccept(t, true, true)
    case NotCompleted => AfterAccept(t, false, false)
    case AcceptThrew => AfterAccept(Close(t, senderFails, receiverFails), false, false)
    case ReacceptThrew => AfterAccept(Close(t, senderFails, receiverFails), true, false)
  }

  /** A failed accept silences the transport: every later SendMessage is a no-op, even
      when the partner that was accepted keeps delivering. */
  lemma AcceptFailureSilencesSend(t: Rdm, outcome: AcceptOutcome, senderFails: bool, receiverFails: bool, payload: seq<byte>, accepted: int)
    requires outcome == AcceptThrew || outcome == ReacceptThrew
    ensures OnAccept(t, outcome, senderFails, receiverFails).t.closed
    ensures !OnAccept(t, outcome, senderFails, receiverFails).accepting
    ensures Send(OnAccept(t, outcome, senderFails, receiverFails).t, payload, accepted) == Sent([], false)
  {
  }

  /** One Receive on a partner's session socket: whether it reported an error, and the
      `len` bytes it filled into the fresh buffer. */
  datatype Read = Read(failed: bool, data: seq<byte>)

  predicate FitsBuffer(r: Read) { |r.data| <= MaxMessageSize }

  /** What one run of Partner.Receive ends in: the socket closed and the chain stopped,
      a payload delivered (or an own datagram logged) and the receive queued again, or an
      exception nobody catches on the thread-pool thread. */
  datatype PartnerStep = Stop | Again(delivered: Option<seq<byte>>) | Crash

  /** The fresh receive buffer after a read: the data, then zeros. */
  function Buffer(data: seq<byte>): (b: seq<byte>)
    requires |data| <= MaxMessageSize
    ensures |b| == MaxMessageSize && b[..|data|] == data
    ensures forall i :: |data| <= i < |b| ==> b[i] == 0
  {
    data + seq(MaxMessageSize - |data|, _ => 0)
  }

  /** Partner.Receive as written: an error closes the session socket and ends the chain;
      otherwise SentByMe looks at the buffer's first 16 bytes, and for another node's data
      MemoryStream(tmp, 16, len - 16) is built with no length check, which throws
      ArgumentOutOfRangeException when fewer than 16 bytes arrived. */
  function ReceiveAsWritten(me: Identity, read: Read): (r: PartnerStep)
    requires FitsBuffer(read)
    ensures read.failed ==> r == Stop
    ensures !read.failed && |read.data| >= IdentityLength ==>
      r == (if IsFrom(read.data, me) then Again(None) else Again(Some(read.data[IdentityLength..])))
    ensures r == Crash <==> !read.failed && |read.data| < IdentityLength && Buffer(read.data)[..IdentityLength] != me
  {
    if read.failed then Stop
    else
      var tmp := Buffer(read.data);
      if tmp[..IdentityLength] == me then Again(None)
      else if |read.data| < IdentityLength then Crash
      else
        assert tmp[..IdentityLength] == read.data[..IdentityLength];
        Again(Some(read.data[IdentityLength..]))
  }

  /** The input that shows it: an empty successful read (the sending node ended its
      session) crashes any node whose identity is not all zeros. */
  lemma EmptyReadCrashes(me: Identity)
    requires me[0] != 0
    ensures ReceiveAsWritten(me, Read(false, [])) == Crash
  {
    assert Buffer([])[0] == 0;
  }

  /** Partner.Receive corrected: it takes the length test of the UDP and TCP loops, so a
      read of 16 bytes or fewer delivers nothing (as written, a read of exactly 16 bytes
      from another node delivers an empty payload); and it treats an empty read as the
      end of the session, closing the socket and ending the chain as an error does (the
      UDP and TCP loops instead go round again after a 0-byte read, which on a session
      the sender has ended would never stop). Otherwise the prefix filter decides. */
  function Receive(me: Identity, read: Read): (r: PartnerStep)
    ensures r != Crash
    ensures r == Stop <==> read.failed || read.data == []
    ensures r.Again? && r.delivered.Some? <==>
      !read.failed && |read.data| > IdentityLength && !IsFrom(read.data, me)
    ensures r.Again? && r.delivered.Some? ==> r.delivered.value == read.data[IdentityLength..]
  {
    if read.failed || read.data == [] then Stop
    else match Filter(me, read.data)
      case Deliver(payload) => Again(Some(payload))
      case _ => Again(None)
  }

  /** On every read that the code as written survives with a payload, the corrected
      receive delivers the same payload. */
  lemma ReceiveAgreesWhenDelivering(me: Identity, read: Read)
    requires FitsBuffer(read)
    requires |read.data| > IdentityLength
    ensures ReceiveAsWritten(me, read) == Receive(me, read)
  {
  }

  /** The other change the correction makes: a read of exactly 16 bytes from another
      node delivers an empty payload as written, and nothing once corrected. */
  lemma SixteenByteReadDiffers(me: Identity, other: Identity)
    requires other != me
    ensures ReceiveAsWritten(me, Read(false, other)) == Again(Some([]))
    ensures Receive(me, Read(false, other)) == Again(None)
  {
    assert Buffer(other)[..IdentityLength] == other;
    assert other[IdentityLength..] == [];
  }

  /** How a partner's receive chain stands after a series of reads. */
  datatype Chain = Chain(delivered: seq<seq<byte>>, ended: bool)

  /** A partner's chain over successive reads: each Receive queues the next until one stops it. */
  function Serve(me: Identity, session: seq<Read>): (r: Chain)
    ensures |r.delivered| <= |session|
    ensures !r.ended <==> forall i :: 0 <= i < |session| ==> !session[i].failed && session[i].data != []
    decreases |session|
  {
    if |session| == 0 then Chain([], false)
    else match Receive(me, session[0])
      case Stop => Chain([], true)
      case Crash => Chain([], true)
      case Again(d) =>
        var rest := Serve(me, session[1..]);
        if d.Some? then rest.(delivered := [d.value] + rest.delivered) else rest
  }

  /** The reads of a session that delivers each datagram whole. */
  function Reads(sent: seq<Datagram>): (session: seq<Read>)
    ensures |session| == |sent|
  {
    seq(|sent|, i requires 0 <= i < |sent| => Read(false, Frame(sent[i].sender, sent[i].payload)))
  }

  /** A session that delivers datagrams whole hands the handler exactly the other nodes'
      non-empty payloads, in order, and never ends on its own. */
  lemma {:induction false} ServeDeliversOthers(me: Identity, sent: seq<Datagram>)
    ensures Serve(me, Reads(sent)).delivered == FromOthers(me, sent)
    ensures !Serve(me, Reads(sent)).ended
    decreases |sent|
  {
    if |sent| > 0 {
      var d := sent[0];
      FilterFrame(me, d.sender, d.payload);
      assert Reads(sent)[1..] == Reads(sent[1..]);
      ServeDeliversOthers(me, sent[1..]);
    }
  }
}

=== FILE: relay_client.dfy ===
/** The relay client transport (TcpCacheClusterTransport): one TCP connection to the
    relay server, a Hello/Welcome handshake, framed Evict sends and a receive loop. */
module RelayClient {
  import opened Wrappers
  import opened Text
  import opened Wire
  import opened TransportBase
  import opened Endpoint

  const MaxMessageSize: int := 65000

  const DefaultAddress: string := "127.0.0.1:9999"

  /** The transport's state: its identity, configuration, the sticky `closed` flag, the
      socket it references (if any) and whether a receiver thread is referenced. */
  datatype Client = Client(me: Identity, cfg: Config, localpath: string, closed: bool,
                           socket: Option<Socket>, receiving: bool)

  /** The constructor: a fresh identity and the default address `127.0.0.1:9999`. */
  function New(me: Identity): (c: Client)
    ensures c.me == me && c.cfg == Config("127.0.0.1", 9999, "", "")
    ensures Format(c.cfg) == DefaultAddress
    ensures !c.closed && c.socket.None? && !c.receiving
  {
    assert IntToString(9999) == "9999" by {
      assert NatToDecimal(9) == "9";
      assert NatToDecimal(99) == "99";
      assert NatToDecimal(999) == "999";
    }
    assert DefaultAddress == "127.0.0.1" + ":" + IntToString(9999);
    CredentialsAreSticky(Unset, "127.0.0.1", 9999);
    Client(me, Assign(Unset, DefaultAddress).cfg, "", false, None, false)
  }

  /** Close: sets `closed`, shuts the socket down through SafeClose (whose null result is
      discarded, so the reference stays), aborts the receiver and, only if it joined,
      drops both the receiver and the socket reference. */
  function Close(c: Client, joined: bool): (r: Client)
    ensures r.closed && r.me == c.me && r.cfg == c.cfg
    ensures !c.receiving ==> !r.receiving && r.socket == SafeClose(c.socket).socket
    ensures c.receiving && joined ==> !r.receiving && r.socket.None?
    ensures c.receiving && !joined ==> r.receiving
  {
    var c1 := c.(closed := true, socket := SafeClose(c.socket).socket);
    if c1.receiving && joined then c1.(receiving := false, socket := None) else c1
  }

  /** Errors Init raises. */
  datatype InitError = MissingAddress | UnparsableAddress | ConnectFailed | CommunicationBroken | HandshakeFailed

  /** How the connect call went, and what ReceiveAll gave for the 20-byte reply header. */
  datatype Connect = Connected | Refused
  datatype Reply = Reply(header: seq<byte>) | NoReply

  /** The client afterwards, the error Init raised (if any), and the Hello frame it offered. */
  datatype InitOutcome = InitOutcome(client: Client, error: Option<InitError>, hello: Option<seq<byte>>)

  /** The Hello payload's text: Localpath, or "<Localpath>" when it is null or empty. */
  function GreetingText(localpath: string): (s: string)
    ensures s != "" && (localpath != "" ==> s == localpath)
  {
    if localpath == "" then "<Localpath>" else localpath
  }

  /** The handshake is accepted when the reply reads as length 0 with the Welcome bit set. */
  predicate Accepts(me: Identity, header: seq<byte>)
    requires |header| == 20
  {
    var h := ReadHeader(me, Some(header)).value;
    h.length == 0 && Has(h.code, Welcome)
  }

  predicate ValidConfig(cfg: Config, parsesAsIp: string -> bool) {
    !IsNullOrWhiteSpace(cfg.host) && cfg.port > 0 && parsesAsIp(cfg.host)
  }

  /** The end of Init once Hello went out: start the receiver if the reply is accepted,
      otherwise Close, which keeps the socket reference since no receiver exists. */
  function Handshake(c: Client, reply: Reply, joined: bool): (r: Client)
    requires reply.Reply? ==> |reply.header| == 20
    requires !c.receiving
    ensures r.receiving <==> reply.Reply? && Accepts(c.me, reply.header)
    ensures r.receiving ==> r == c.(receiving := true)
    ensures !r.receiving ==> r.closed && r.socket == SafeClose(c.socket).socket
  {
    if reply.Reply? && Accepts(c.me, reply.header) then c.(receiving := true) else Close(c, joined)
  }

  /** Init: validate the address, connect, send Hello and await one header. A failure to
      connect or to send Hello closes the transport and throws; a missing or rejected
      reply only closes it: the final null-socket check never fires. A refused connect
      leaves an unconnected socket, which Close cannot shut down and so never closes. */
  function Init(c: Client, parsesAsIp: string -> bool, utf8: string -> seq<byte>, connect: Connect,
                helloSend: SendAttempt, reply: Reply, joined: bool): (r: InitOutcome)
    requires |utf8(GreetingText(c.localpath))| <= MaxInt32
    requires reply.Reply? ==> |reply.header| == 20
    requires !c.receiving
    ensures IsNullOrWhiteSpace(c.cfg.host) || c.cfg.port <= 0 ==>
      r == InitOutcome(c, Some(MissingAddress), None)
    ensures !IsNullOrWhiteSpace(c.cfg.host) && c.cfg.port > 0 && !parsesAsIp(c.cfg.host) ==>
      r == InitOutcome(c, Some(UnparsableAddress), None)
    ensures !ValidConfig(c.cfg, parsesAsIp) ==> r.client == c && r.error.Some?
    ensures ValidConfig(c.cfg, parsesAsIp) ==>
      (r.error.None? <==> connect == Connected && !c.closed && !helloSend.failed
                          && helloSend.sent == 20 + |utf8(GreetingText(c.localpath))|)
    ensures ValidConfig(c.cfg, parsesAsIp) && connect == Refused ==>
      r.error == Some(ConnectFailed) && r.hello.None?
    ensures ValidConfig(c.cfg, parsesAsIp) && connect == Connected && r.error.Some? ==>
      r.error == Some(CommunicationBroken)
    ensures r.error != Some(HandshakeFailed)
    ensures r.client.receiving <==>
      ValidConfig(c.cfg, parsesAsIp) && connect == Connected && !c.closed
      && !helloSend.failed && helloSend.sent == 20 + |utf8(GreetingText(c.localpath))|
      && reply.Reply? && Accepts(c.me, reply.header)
    ensures r.client.receiving ==> r.error.None? && !r.client.closed && r.client.socket == Some(Open)
    ensures r.hello.Some? ==> r.hello.value == Encode(c.me, Some(utf8(GreetingText(c.localpath))), Hello)
    ensures ValidConfig(c.cfg, parsesAsIp) && !r.client.receiving ==>
      r.client.closed && r.client.socket == Some(if connect == Refused then Unready else Closed)
  {
    if IsNullOrWhiteSpace(c.cfg.host) || c.cfg.port <= 0 then InitOutcome(c, Some(MissingAddress), None)
    else if !parsesAsIp(c.cfg.host) then InitOutcome(c, Some(UnparsableAddress), None)
    else if connect == Refused then
      InitOutcome(Close(c.(socket := Some(Unready)), joined), Some(ConnectFailed), None)
    else
      var c1 := c.(socket := Some(Open));
      var greeting := utf8(GreetingText(c.localpath));
      var sent := SendBase(c.me, c1.closed, c1.socket, Some(greeting), Hello, helloSend);
      var c2 := c1.(closed := sent.closed);
      if sent.threw then InitOutcome(Close(c2, joined), Some(CommunicationBroken), sent.offered)
      else
        assert !c.closed && !helloSend.failed && helloSend.sent == 20 + |greeting|;
        var c3 := Handshake(c2, reply, joined);
        if c3.socket.None? then InitOutcome(c3, Some(HandshakeFailed), sent.offered)
        else
          assert ValidConfig(c.cfg, parsesAsIp);
          assert connect == Connected;
          assert c3.receiving <==> reply.Reply? && Accepts(c.me, reply.header);
          InitOutcome(c3, None, sent.offered)
  }

  /** A missing or rejected reply raises nothing: Init returns normally with the
      transport closed, no receiver and the socket shut down and closed. */
  lemma RejectedReplyIsSilent(c: Client, parsesAsIp: string -> bool, utf8: string -> seq<byte>,
                              helloSend: SendAttempt, reply: Reply, joined: bool)
    requires |utf8(GreetingText(c.localpath))| <= MaxInt32
    requires reply.Reply? ==> |reply.header| == 20
    requires !c.receiving && !c.closed && ValidConfig(c.cfg, parsesAsIp)
    requires !helloSend.failed && helloSend.sent == 20 + |utf8(GreetingText(c.localpath))|
    requires !(reply.Reply? && Accepts(c.me, reply.header))
    ensures var r := Init(c, parsesAsIp, utf8, Connected, helloSend, reply, joined);
      && r.error.None? && !r.client.receiving
      && r.client.closed && r.client.socket == Some(Closed)
  {
  }

  /** SendMessage: the payload framed with opcode Evict through SendBase. */
  function SendMessage(c: Client, payload: seq<byte>, attempt: SendAttempt): (r: (Client, SendOutcome))
    requires |payload| <= MaxInt32
    ensures r.0 == c.(closed := r.1.closed)
    ensures r.1.offered.Some? ==> r.1.offered.value == Encode(c.me, Some(payload), Evict)
    ensures c.closed ==> r.1.threw
  {
    var o := SendBase(c.me, c.closed, c.socket, Some(payload), Evict, attempt);
    (c.(closed := o.closed), o)
  }

  /** Why the receive loop stopped: `closed` was already set, a header or payload read
      failed, or a negative length made the payload allocation throw an exception the
      loop does not catch. */
  datatype LoopEnd = ClosedFlag | ReadFailed | Crashed

  /** The payloads handed to the handler, the self-echoes only logged, and the ending. */
  datatype Received = Received(delivered: seq<seq<byte>>, echoes: nat, end: LoopEnd)

  function Prepend(delivered: seq<seq<byte>>, echoes: nat, r: Received): Received {
    Received(delivered + r.delivered, echoes + r.echoes, r.end)
  }

  /** What one iteration finds at the head of the stream: too few bytes, a negative
      length, or a whole frame of `size` bytes. */
  datatype Head = Incomplete | NegativeLength | Complete(echo: bool, payload: seq<byte>, size: nat)

  /** One iteration's reads: a 20-byte header, then `length` payload bytes. */
  function ReadFrame(me: Identity, s: seq<byte>): (r: Head)
    ensures r.Complete? ==> 20 <= r.size <= |s| && r.payload == s[20..r.size]
  {
    if |s| < 20 then Incomplete
    else
      var h := ReadHeader(me, Some(s[..20])).value;
      if h.length < 0 then NegativeLength
      else if |s| - 20 < h.length then Incomplete
      else Complete(Has(h.code, SentByMe), s[20..20 + h.length], 20 + h.length)
  }

  /** The receive loop over the bytes the socket yields before it fails: each complete
      frame's payload is delivered unless SentByMe is set. */
  function ReceiveFrames(me: Identity, stream: seq<byte>): (r: Received)
    ensures r.end != ClosedFlag
    ensures 20 * (|r.delivered| + r.echoes) <= |stream|
    decreases |stream|
  {
    match ReadFrame(me, stream)
    case Incomplete => Received([], 0, ReadFailed)
    case NegativeLength => Received([], 0, Crashed)
    case Complete(echo, payload, size) =>
      var rest := ReceiveFrames(me, stream[size..]);
      if echo then Prepend([], 1, rest) else Prepend([payload], 0, rest)
  }

  lemma PrependTwice(d1: seq<seq<byte>>, e1: nat, d2: seq<seq<byte>>, e2: nat, r: Received)
    ensures Prepend(d1, e1, Prepend(d2, e2, r)) == Prepend(d1 + d2, e1 + e2, r)
  {
    assert d1 + (d2 + r.delivered) == (d1 + d2) + r.delivered;
  }

  lemma PrependNothing(r: Received)
    ensures Prepend([], 0, r) == r
  {
    assert [] + r.delivered == r.delivered;
  }

  /** One complete frame at the head of the stream moves into the delivered payloads
      or the echo count. */
  lemma ReceiveStep(me: Identity, rest: seq<byte>, delivered: seq<seq<byte>>, echoes: nat)
    requires ReadFrame(me, rest).Complete?
    ensures var h := ReadFrame(me, rest);
      h.echo ==> (Prepend(delivered, echoes, ReceiveFrames(me, rest)) ==
                  Prepend(delivered, echoes + 1, ReceiveFrames(me, rest[h.size..])))
    ensures var h := ReadFrame(me, rest);
      !h.echo ==> (Prepend(delivered, echoes, ReceiveFrames(me, rest)) ==
                   Prepend(delivered + [h.payload], echoes, ReceiveFrames(me, rest[h.size..])))
  {
    var h := ReadFrame(me, rest);
    var d: seq<seq<byte>> := if h.echo then [] else [h.payload];
    PrependTwice(delivered, echoes, d, if h.echo then 1 else 0, ReceiveFrames(me, rest[h.size..]));
    assert delivered + [] == delivered;
  }

  /** A stream without a complete frame at its head ends the loop. */
  lemma ReceiveEnd(me: Identity, rest: seq<byte>, delivered: seq<seq<byte>>, echoes: nat)
    requires !ReadFrame(me, rest).Complete?
    ensures Prepend(delivered, echoes, ReceiveFrames(me, rest)) ==
      Received(delivered, echoes, if ReadFrame(me, rest).NegativeLength? then Crashed else ReadFailed)
  {
    assert delivered + [] == delivered;
  }

  /** ReceiveLoop: runs while `closed` is clear, one frame per iteration. A concurrent
      Close shuts the socket, which ends the stream. */
  method ReceiveLoop(me: Identity, closed: bool, stream: seq<byte>) returns (r: Received)
    ensures closed ==> r == Received([], 0, ClosedFlag)
    ensures !closed ==> r == ReceiveFrames(me, stream)
  {
    if closed {
      return Received([], 0, ClosedFlag);
    }
    var rest := stream;
    var delivered: seq<seq<byte>> := [];
    var echoes := 0;
    PrependNothing(ReceiveFrames(me, stream));
    while true
      invariant ReceiveFrames(me, stream) == Prepend(delivered, echoes, ReceiveFrames(me, rest))
      decreases |rest|
    {
      var head := ReadFrame(me, rest);
      if !head.Complete? {
        ReceiveEnd(me, rest, delivered, echoes);
        return Received(delivered, echoes, if head.NegativeLength? then Crashed else ReadFailed);
      }
      ReceiveStep(me, rest, delivered, echoes);
      if head.echo {
        echoes := echoes + 1;
      } else {
        delivered := delivered + [head.payload];
      }
      rest := rest[head.size..];
    }
  }

  /** One Evict frame as another node's SendMessage puts it on the wire. */
  datatype Frame = Frame(sender: Identity, payload: seq<byte>)

  predicate Sendable(frames: seq<Frame>) {
    forall i :: 0 <= i < |frames| ==> |frames[i].payload| < Two23
  }

  function WireBytes(frames: seq<Frame>): seq<byte>
    requires Sendable(frames)
  {
    if |frames| == 0 then []
    else Encode(frames[0].sender, Some(frames[0].payload), Evict) + WireBytes(frames[1..])
  }

  /** What a reader with identity `me` should see: every other node's payload, in order. */
  function Expected(me: Identity, frames: seq<Frame>): Received {
    if |frames| == 0 then Received([], 0, ReadFailed)
    else if frames[0].sender == me then Prepend([], 1, Expected(me, frames[1..]))
    else Prepend([frames[0].payload], 0, Expected(me, frames[1..]))
  }

  /** ReadHeader looks at nothing beyond the first 20 bytes. */
  lemma ReadHeaderPrefix(me: Identity, b: seq<byte>)
    requires |b| >= 20
    ensures ReadHeader(me, Some(b)) == ReadHeader(me, Some(b[..20]))
  {
    assert b[..20][16..20] == b[16..20];
    assert b[..20][..16] == b[..16];
  }

  /** The stream round trip: the receive loop over a series of Evict frames delivers
      exactly the payloads of frames from other senders, in order, and counts the rest
      as self-echoes. */
  lemma {:induction false} ReceiveSentFrames(me: Identity, frames: seq<Frame>)
    requires Sendable(frames)
    ensures ReceiveFrames(me, WireBytes(frames)) == Expected(me, frames)
  {
    if |frames| > 0 {
      var f := frames[0];
      var e := Encode(f.sender, Some(f.payload), Evict);
      var s := WireBytes(frames);
      assert s == e + WireBytes(frames[1..]);
      assert s[..20] == e[..20];
      ReadHeaderPrefix(me, e);
      ReadPrepared(f.sender, me, Some(f.payload), Evict);
      var h := ReadHeader(me, Some(s[..20])).value;
      assert h.length == |f.payload|;
      assert Has(h.code, SentByMe) <==> f.sender == me;
      assert ReadFrame(me, s) == Complete(f.sender == me, f.payload, 20 + |f.payload|) by {
        assert s[20..20 + h.length] == f.payload;
      }
      assert s[20 + h.length..] == WireBytes(frames[1..]);
      ReceiveSentFrames(me, frames[1..]);
    }
  }

  /** Self-echo suppression: a node never hands its own frames to the handler. */
  lemma {:induction false} OwnFramesNeverDelivered(me: Identity, payloads: seq<seq<byte>>)
    requires forall i :: 0 <= i < |payloads| ==> |payloads[i]| < Two23
    ensures var frames := seq(|payloads|, i requires 0 <= i < |payloads| => Frame(me, payloads[i]));
      ReceiveFrames(me, WireBytes(frames)) == Received([], |payloads|, ReadFailed)
  {
    var frames := seq(|payloads|, i requires 0 <= i < |payloads| => Frame(me, payloads[i]));
    ReceiveSentFrames(me, frames);
    ExpectedOwn(me, frames);
  }

  lemma {:induction false} ExpectedOwn(me: Identity, frames: seq<Frame>)
    requires forall i :: 0 <= i < |frames| ==> frames[i].sender == me
    ensures Expected(me, frames) == Received([], |frames|, ReadFailed)
  {
    if |frames| > 0 {
      ExpectedOwn(me, frames[1..]);
    }
  }
}

=== FILE: relay_server.dfy ===
/** The broadcast relay server (TcpCacheClusterServer): a table of connected partners,
    each read callback classifying one 20-byte header, and a broadcast work item that
    forwards an Evict message to every partner except its sender. The asynchronous
    callbacks are modelled as sequential steps over one server state. */
module RelayServer {
  import opened Wrappers
  import opened Text
  import opened Wire
  import RelayClient

  /** The limit of the server's own transport instance. */
  const MaxMessageSize: int := RelayClient.MaxMessageSize

  /** A partner socket: usable, or shut down by a failed broadcast send. */
  datatype PeerSocket = Connected | ShutDown

  /** Partner: `id` stands for object identity, `name` for the remote endpoint's text,
      `alias` for what ToString shows, `evictions` for the Evict messages relayed from it. */
  datatype Peer = Peer(id: nat, name: string, alias: string, evictions: int, socket: PeerSocket)

  /** A message to fan out: its number, the header-and-payload bytes, and the sender. */
  datatype Broadcast = Broadcast(number: int, data: seq<byte>, sender: nat)

  /** The server: the definition transport's identity (the server's ReadHeader compares
      against it), the partner table, the static broadcast counter, the next object
      identity, and the broadcast work items queued on the thread pool. */
  datatype Server = Server(def: Identity, peers: seq<Peer>, counter: int, nextId: nat, queue: seq<Broadcast>)

  function Ids(peers: seq<Peer>): (r: seq<nat>)
    ensures |r| == |peers| && forall i :: 0 <= i < |peers| ==> r[i] == peers[i].id
  {
    seq(|peers|, i requires 0 <= i < |peers| => peers[i].id)
  }

  predicate UniqueIds(peers: seq<Peer>) {
    forall i, j :: 0 <= i < j < |peers| ==> peers[i].id != peers[j].id
  }

  /** What every reachable server state satisfies. */
  predicate Valid(s: Server) {
    && UniqueIds(s.peers)
    && (forall i :: 0 <= i < |s.peers| ==> s.peers[i].id < s.nextId && IsInt32(s.peers[i].evictions))
    && IsInt32(s.counter)
  }

  /** The server at start-up: no partners, the broadcast counter at 0. */
  function Start(def: Identity): (s: Server)
    ensures Valid(s) && s.peers == [] && s.counter == 0 && s.queue == []
  {
    Server(def, [], 0, 0, [])
  }

  /** Interlocked.Increment on the static counter, which wraps at Int32.MaxValue. */
  function NextNumber(counter: int): (n: int)
    requires IsInt32(counter)
    ensures n == Wrap32(counter + 1)
    ensures counter < MaxInt32 ==> n == counter + 1
  {
    if counter == MaxInt32 then MinInt32 else counter + 1
  }

  /** AcceptCallback: a new partner, aliased by its endpoint, joins the end of the table. */
  function Accept(s: Server, name: string): (r: Server)
    requires Valid(s)
    ensures Valid(r)
    ensures s.nextId !in Ids(s.peers)
    ensures r.peers == s.peers + [Peer(s.nextId, name, name, 0, Connected)]
    ensures r.counter == s.counter && r.queue == s.queue && r.def == s.def
  {
    Server(s.def, s.peers + [Peer(s.nextId, name, name, 0, Connected)], s.counter, s.nextId + 1, s.queue)
  }

  /** The position of the partner with object identity `id`, or -1. */
  function PeerIndex(peers: seq<Peer>, id: nat): (k: int)
    ensures -1 <= k < |peers|
    ensures k == -1 <==> forall j :: 0 <= j < |peers| ==> peers[j].id != id
    ensures 0 <= k ==> peers[k].id == id && forall j :: 0 <= j < k ==> peers[j].id != id
  {
    if |peers| == 0 then -1
    else if peers[0].id == id then 0
    else
      var k := PeerIndex(peers[1..], id);
      assert forall j :: 1 <= j < |peers| ==> peers[j] == peers[1..][j - 1];
      if k == -1 then -1 else k + 1
  }

  /** The table with entry `k` cut out. */
  function Without(peers: seq<Peer>, k: nat): (r: seq<Peer>)
    requires k < |peers|
    ensures |r| == |peers| - 1
    ensures forall i :: 0 <= i < |r| ==> r[i] == peers[if i < k then i else i + 1]
  {
    peers[..k] + peers[k + 1..]
  }

  /** List.Remove: drops the first partner with that identity, if any. */
  function RemovePeer(peers: seq<Peer>, id: nat): (r: seq<Peer>)
    ensures (forall j :: 0 <= j < |peers| ==> peers[j].id != id) ==> r == peers
    ensures (exists j :: 0 <= j < |peers| && peers[j].id == id) ==> |r| == |peers| - 1
  {
    var k := PeerIndex(peers, id);
    if k < 0 then peers else Without(peers, k)
  }

  /** Removing a partner from a table with distinct identities removes exactly that
      partner, keeps every other one, and keeps identities distinct. */
  lemma RemoveOnlyThat(peers: seq<Peer>, id: nat)
    requires UniqueIds(peers)
    ensures UniqueIds(RemovePeer(peers, id))
    ensures forall q :: q in RemovePeer(peers, id) <==> q in peers && q.id != id
  {
    var k := PeerIndex(peers, id);
    if k >= 0 {
      var r := Without(peers, k);
      forall i, j | 0 <= i < j < |r|
        ensures r[i].id != r[j].id
      {
        var i', j' := if i < k then i else i + 1, if j < k then j else j + 1;
        assert r[i] == peers[i'] && r[j] == peers[j'] && i' < j';
      }
      WithoutMembers(peers, k);
    }
  }

  lemma WithoutMembers(peers: seq<Peer>, k: nat)
    requires UniqueIds(peers) && k < |peers|
    ensures forall q :: q in Without(peers, k) <==> q in peers && q.id != peers[k].id
  {
    var r := Without(peers, k);
    forall q | q in peers && q.id != peers[k].id
      ensures q in r
    {
      var i :| 0 <= i < |peers| && peers[i] == q;
      if i < k {
        assert r[i] == q;
      } else {
        assert r[i - 1] == q;
      }
    }
    forall q | q in r
      ensures q in peers && q.id != peers[k].id
    {
      var i :| 0 <= i < |r| && r[i] == q;
      var i' := if i < k then i else i + 1;
      assert q == peers[i'] && i' != k;
    }
  }

  /** The fan-out targets of a broadcast: every partner except the sender, in table order. */
  function Targets(peers: seq<Peer>, sender: nat): (r: seq<nat>)
    ensures forall t :: t in r <==> t in Ids(peers) && t != sender
  {
    if |peers| == 0 then []
    else
      assert Ids(peers) == [peers[0].id] + Ids(peers[1..]);
      (if peers[0].id == sender then [] else [peers[0].id]) + Targets(peers[1..], sender)
  }

  lemma IdsConcat(a: seq<Peer>, b: seq<Peer>)
    ensures Ids(a + b) == Ids(a) + Ids(b)
  {
  }

  lemma {:induction false} TargetsWithoutSender(peers: seq<Peer>, sender: nat)
    requires sender !in Ids(peers)
    ensures Targets(peers, sender) == Ids(peers)
  {
    if |peers| > 0 {
      assert Ids(peers) == [peers[0].id] + Ids(peers[1..]);
      TargetsWithoutSender(peers[1..], sender);
    }
  }

  /** In a table with distinct identities the fan-out targets are exactly the table that
      disconnecting the sender would leave, in table order. */
  lemma {:induction false} TargetsInTableOrder(peers: seq<Peer>, sender: nat)
    requires UniqueIds(peers)
    ensures Targets(peers, sender) == Ids(RemovePeer(peers, sender))
  {
    if |peers| > 0 {
      var tail := peers[1..];
      assert Ids(peers) == [peers[0].id] + Ids(tail);
      if peers[0].id == sender {
        assert sender !in Ids(tail) by {
          assert forall j :: 0 <= j < |tail| ==> tail[j].id == peers[j + 1].id;
        }
        TargetsWithoutSender(tail, sender);
        assert RemovePeer(peers, sender) == tail;
      } else {
        TargetsInTableOrder(tail, sender);
        RemoveBehindHead(peers, sender);
        IdsConcat([peers[0]], RemovePeer(tail, sender));
      }
    }
  }

  /** Behind a head with another identity, positions shift by one. */
  lemma PeerIndexBehindHead(peers: seq<Peer>, id: nat)
    requires |peers| > 0 && peers[0].id != id
    ensures var k := PeerIndex(peers[1..], id);
      PeerIndex(peers, id) == if k < 0 then -1 else k + 1
  {
  }

  lemma WithoutBehindHead(peers: seq<Peer>, k: nat)
    requires k + 1 < |peers|
    ensures Without(peers, k + 1) == [peers[0]] + Without(peers[1..], k)
  {
    var tail := peers[1..];
    assert peers[..k + 1] == [peers[0]] + tail[..k];
    assert peers[k + 2..] == tail[k + 1..];
  }

  lemma {:induction false} RemoveBehindHead(peers: seq<Peer>, id: nat)
    requires |peers| > 0 && peers[0].id != id
    ensures RemovePeer(peers, id) == [peers[0]] + RemovePeer(peers[1..], id)
  {
    PeerIndexBehindHead(peers, id);
    var k := PeerIndex(peers[1..], id);
    if k >= 0 {
      WithoutBehindHead(peers, k);
    }
  }

  /** What the read callback does with one completed header read. */
  datatype Action =
    | Disconnect
    | Relay(data: seq<byte>)
    | Greet(name: string, reply: seq<byte>)
    | Log(code: OpCode, length: int)

  /** ReadCallback's decision. `received` is what EndReceive put into the header buffer
      (None when it threw); `pending` is what the partner has sent beyond it, from which
      ReceiveAll takes what it needs (fewer bytes than needed is a failed read);
      `decode` is Encoding.UTF8.GetString and `replySent` what SendAll reported. */
  function Classify(def: Identity, received: Option<seq<byte>>, pending: seq<byte>,
                    decode: seq<byte> -> string, replySent: bool): (a: Action)
    ensures received.None? || |received.value| != 20 ==> a.Disconnect?
    ensures a.Relay? <==>
      && received.Some? && |received.value| == 20
      && 0 < FrameLength(received.value) <= MaxMessageSize
      && Has(received.value[16], Evict)
      && FrameLength(received.value) <= |pending|
    ensures a.Relay? ==>
      |a.data| == FrameLength(received.value) + 20
      && a.data[..20] == received.value && a.data[20..] == pending[..FrameLength(received.value)]
    ensures a.Greet? <==>
      && received.Some? && |received.value| == 20
      && 0 <= FrameLength(received.value) <= MaxMessageSize
      && Has(received.value[16], Hello)
      && !(FrameLength(received.value) > 0 && Has(received.value[16], Evict))
      && FrameLength(received.value) <= |pending| && replySent
    ensures a.Greet? ==>
      a.name == decode(pending[..FrameLength(received.value)])
      && |a.reply| == 20 && a.reply[..16] == received.value[..16]
      && FromLE32(a.reply[16..]) == PackedField(0, Welcome)
    ensures a.Log? <==>
      && received.Some? && |received.value| == 20
      && FrameLength(received.value) <= MaxMessageSize
      && !(FrameLength(received.value) > 0 && Has(received.value[16], Evict))
      && !Has(received.value[16], Hello)
  {
    if received.None? || |received.value| != HeaderLength(def) then Disconnect
    else
      var header := received.value;
      var h := ReadHeader(def, Some(header)).value;
      ReadHeaderFlags(def, header, Evict);
      ReadHeaderFlags(def, header, Hello);
      if h.length > MaxMessageSize then Disconnect
      else if h.length > 0 && Has(h.code, Evict) then
        if h.length <= |pending| then Relay(header + pending[..h.length]) else Disconnect
      else if Has(h.code, Hello) then
        // `new byte[len]` throws for a negative length; the catch disconnects
        if h.length < 0 || |pending| < h.length || !replySent then Disconnect
        else
          var reply := header[..16] + LE32(Welcome);
          LE32RoundTrip(Welcome);
          assert reply[16..] == LE32(Welcome);
          Greet(decode(pending[..h.length]), reply)
      else Log(h.code, h.length)
  }

  /** The server after a read callback, and the decision taken. */
  datatype ReadOutcome = ReadOutcome(server: Server, action: Action)

  /** A fully read Evict message: the sender's count rises by one and a broadcast with the
      next number is queued. */
  function Relayed(s: Server, k: nat, data: seq<byte>): (r: Server)
    requires Valid(s) && k < |s.peers|
    ensures Valid(r) && r.def == s.def
    ensures r.counter == NextNumber(s.counter)
    ensures r.queue == s.queue + [Broadcast(r.counter, data, s.peers[k].id)]
    ensures r.peers == s.peers[k := s.peers[k].(evictions := Wrap32(s.peers[k].evictions + 1))]
  {
    var n := NextNumber(s.counter);
    var p := s.peers[k];
    var p' := p.(evictions := Wrap32(p.evictions + 1));
    UpdateKeepsValid(s, k, p');
    s.(peers := s.peers[k := p'], counter := n, queue := s.queue + [Broadcast(n, data, p.id)])
  }

  /** A Hello with its name read and the Welcome sent: the alias becomes "name (endpoint)". */
  function Greeted(s: Server, k: nat, name: string): (r: Server)
    requires Valid(s) && k < |s.peers|
    ensures Valid(r) && r.def == s.def && r.counter == s.counter && r.queue == s.queue
    ensures r.peers == s.peers[k := s.peers[k].(alias := name + " (" + s.peers[k].name + ")")]
  {
    var p := s.peers[k];
    UpdateKeepsValid(s, k, p.(alias := name + " (" + p.name + ")"));
    s.(peers := s.peers[k := p.(alias := name + " (" + p.name + ")")])
  }

  /** One read callback for partner `id`. A partner whose socket was shut down has its
      pending receive complete with nothing, so it is disconnected. */
  function OnRead(s: Server, id: nat, received: Option<seq<byte>>, pending: seq<byte>,
                  decode: seq<byte> -> string, replySent: bool): (r: ReadOutcome)
    requires Valid(s)
    ensures Valid(r.server)
    ensures r.server.def == s.def
    ensures PeerIndex(s.peers, id) < 0 ==> r.server == s
    ensures 0 <= PeerIndex(s.peers, id) && s.peers[PeerIndex(s.peers, id)].socket == ShutDown ==>
      r.action.Disconnect?
    ensures 0 <= PeerIndex(s.peers, id) && s.peers[PeerIndex(s.peers, id)].socket == Connected ==>
      r.action == Classify(s.def, received, pending, decode, replySent)
    ensures r.action.Disconnect? && 0 <= PeerIndex(s.peers, id) ==>
      r.server == s.(peers := RemovePeer(s.peers, id))
    ensures r.action.Relay? ==>
      var k := PeerIndex(s.peers, id);
      && 0 <= k
      && r.server.counter == NextNumber(s.counter)
      && r.server.queue == s.queue + [Broadcast(r.server.counter, r.action.data, id)]
      && |r.server.peers| == |s.peers|
      && r.server.peers[k].evictions == Wrap32(s.peers[k].evictions + 1)
      && r.server.peers[k] == s.peers[k].(evictions := r.server.peers[k].evictions)
      && forall j :: 0 <= j < |s.peers| && j != k ==> r.server.peers[j] == s.peers[j]
    ensures r.action.Greet? ==>
      var k := PeerIndex(s.peers, id);
      && 0 <= k
      && r.server.counter == s.counter && r.server.queue == s.queue
      && |r.server.peers| == |s.peers|
      && r.server.peers[k] == s.peers[k].(alias := r.action.name + " (" + s.peers[k].name + ")")
      && forall j :: 0 <= j < |s.peers| && j != k ==> r.server.peers[j] == s.peers[j]
    ensures r.action.Log? ==> r.server == s
  {
    var k := PeerIndex(s.peers, id);
    if k < 0 then ReadOutcome(s, Log(0, 0))
    else
      var p := s.peers[k];
      var a := if p.socket == ShutDown then Disconnect else Classify(s.def, received, pending, decode, replySent);
      match a
      case Disconnect =>
        RemoveKeepsValid(s, id);
        ReadOutcome(s.(peers := RemovePeer(s.peers, id)), a)
      case Relay(data) => ReadOutcome(Relayed(s, k, data), a)
      case Greet(name, _) => ReadOutcome(Greeted(s, k, name), a)
      case Log(_, _) => ReadOutcome(s, a)
  }

  lemma RemoveKeepsValid(s: Server, id: nat)
    requires Valid(s)
    ensures Valid(s.(peers := RemovePeer(s.peers, id)))
  {
    var r := RemovePeer(s.peers, id);
    RemoveOnlyThat(s.peers, id);
    forall i | 0 <= i < |r|
      ensures r[i].id < s.nextId && IsInt32(r[i].evictions)
    {
      assert r[i] in s.peers;
    }
  }

  /** Replacing one partner's record, identity kept, keeps the server valid whatever
      the counter becomes. */
  lemma UpdateKeepsValid(s: Server, k: nat, p: Peer)
    requires Valid(s) && k < |s.peers| && p.id == s.peers[k].id && IsInt32(p.evictions)
    ensures forall c: int :: IsInt32(c) ==> Valid(s.(peers := s.peers[k := p], counter := c))
  {
  }

  /** One completed send of a broadcast to a target. */
  datatype Delivery = Delivery(target: nat, number: int, data: seq<byte>)

  /** A target's send fails when its socket is already shut down (BeginSend throws) or
      when SendCallback saw an error or a byte count other than the message length.
      `reports` maps a target to the count EndSend returned; a missing entry is an error. */
  predicate SendFails(p: Peer, b: Broadcast, reports: map<nat, int>) {
    p.socket == ShutDown || p.id !in reports || reports[p.id] != |b.data|
  }

  /** Shuts down every target whose send failed; nothing else changes. */
  function ShutFailed(peers: seq<Peer>, b: Broadcast, reports: map<nat, int>): (r: seq<Peer>)
    ensures |r| == |peers|
    ensures forall i :: 0 <= i < |peers| ==>
      r[i] == if peers[i].id != b.sender && SendFails(peers[i], b, reports)
              then peers[i].(socket := ShutDown) else peers[i]
  {
    seq(|peers|, i requires 0 <= i < |peers| =>
      if peers[i].id != b.sender && SendFails(peers[i], b, reports) then peers[i].(socket := ShutDown) else peers[i])
  }

  /** The targets that received the whole message, in table order. */
  function Delivered(peers: seq<Peer>, b: Broadcast, reports: map<nat, int>): (r: seq<Delivery>)
    ensures forall d :: d in r ==> d.number == b.number && d.data == b.data && d.target != b.sender
    ensures forall d :: d in r <==>
      exists i :: 0 <= i < |peers| && d == Delivery(peers[i].id, b.number, b.data)
        && peers[i].id != b.sender && !SendFails(peers[i], b, reports)
  {
    if |peers| == 0 then []
    else
      var p := peers[0];
      var rest := Delivered(peers[1..], b, reports);
      var r := (if p.id != b.sender && !SendFails(p, b, reports) then [Delivery(p.id, b.number, b.data)] else []) + rest;
      assert forall d :: d in rest <==>
        exists i :: 1 <= i < |peers| && d == Delivery(peers[i].id, b.number, b.data)
          && peers[i].id != b.sender && !SendFails(peers[i], b, reports) by {
        forall d | d in rest
          ensures exists i :: (1 <= i < |peers| && d == Delivery(peers[i].id, b.number, b.data)
            && peers[i].id != b.sender && !SendFails(peers[i], b, reports))
        {
          var j :| 0 <= j < |peers[1..]| && d == Delivery(peers[1..][j].id, b.number, b.data)
            && peers[1..][j].id != b.sender && !SendFails(peers[1..][j], b, reports);
          assert peers[j + 1] == peers[1..][j];
        }
        forall d, i | 1 <= i < |peers| && d == Delivery(peers[i].id, b.number, b.data)
            && peers[i].id != b.sender && !SendFails(peers[i], b, reports)
          ensures d in rest
        {
          assert peers[1..][i - 1] == peers[i];
        }
      }
      r
  }

  /** The server after a broadcast work item ran, and the sends that completed. */
  datatype PerformOutcome = PerformOutcome(server: Server, sent: seq<Delivery>)

  /** PerformBroadcast for queued item `k` (the thread pool may run items in any order),
      with SendCallback's verdict per target folded in: the targets are taken from the
      table as it is now, and a failed send shuts down only that target, whose next read
      then disconnects it. */
  function Perform(s: Server, k: nat, reports: map<nat, int>): (r: PerformOutcome)
    requires Valid(s)
    ensures Valid(r.server)
    ensures k >= |s.queue| ==> r == PerformOutcome(s, [])
    ensures k < |s.queue| ==>
      var b := s.queue[k];
      && r.server == s.(peers := ShutFailed(s.peers, b, reports), queue := s.queue[..k] + s.queue[k + 1..])
      && Ids(r.server.peers) == Ids(s.peers)
      && r.sent == Delivered(s.peers, b, reports)
  {
    if k >= |s.queue| then PerformOutcome(s, [])
    else
      var b := s.queue[k];
      var peers := ShutFailed(s.peers, b, reports);
      PerformOutcome(s.(peers := peers, queue := s.queue[..k] + s.queue[k + 1..]), Delivered(s.peers, b, reports))
  }

  /** A broadcast never goes back to its sender, and every partner that is not the sender
      either receives it whole or is shut down. */
  lemma FanOutExcludesSender(s: Server, k: nat, reports: map<nat, int>)
    requires Valid(s) && k < |s.queue|
    ensures var b := s.queue[k]; var r := Perform(s, k, reports);
      && (forall d :: d in r.sent ==> d.target != b.sender && d.target in Targets(s.peers, b.sender))
      && forall i :: 0 <= i < |s.peers| && s.peers[i].id != b.sender ==>
           Delivery(s.peers[i].id, b.number, b.data) in r.sent || r.server.peers[i].socket == ShutDown
  {
    var b := s.queue[k];
    var r := Perform(s, k, reports);
    forall i | 0 <= i < |s.peers| && s.peers[i].id != b.sender
      ensures Delivery(s.peers[i].id, b.number, b.data) in r.sent || r.server.peers[i].socket == ShutDown
    {
      if !SendFails(s.peers[i], b, reports) {
        assert Delivery(s.peers[i].id, b.number, b.data) in Delivered(s.peers, b, reports);
      }
    }
    forall d | d in r.sent
      ensures d.target in Targets(s.peers, b.sender)
    {
      var i :| 0 <= i < |s.peers| && d == Delivery(s.peers[i].id, b.number, b.data)
        && s.peers[i].id != b.sender && !SendFails(s.peers[i], b, reports);
      assert d.target in Ids(s.peers);
    }
  }

  /** The server's events, in the order they are serialised. */
  datatype Event =
    | Connect(name: string)
    | Read(id: nat, received: Option<seq<byte>>, pending: seq<byte>, replySent: bool)
    | RunBroadcast(k: nat, reports: map<nat, int>)

  /** Runs a series of events, collecting the broadcasts created along the way. */
  function Run(s: Server, events: seq<Event>, decode: seq<byte> -> string): (r: (Server, seq<Broadcast>))
    requires Valid(s)
    ensures Valid(r.0)
    ensures |r.1| <= |events|
    decreases |events|
  {
    if |events| == 0 then (s, [])
    else
      var (s', created) := Step(s, events[0], decode);
      var (t, more) := Run(s', events[1..], decode);
      (t, created + more)
  }

  /** One event, and the broadcast it created, if any. */
  function Step(s: Server, e: Event, decode: seq<byte> -> string): (r: (Server, seq<Broadcast>))
    requires Valid(s)
    ensures Valid(r.0)
    ensures |r.1| <= 1
    ensures r.0.counter == Advance(s.counter, |r.1|)
    ensures |r.1| == 1 ==> r.1[0].number == r.0.counter
  {
    match e
    case Connect(name) => (Accept(s, name), [])
    case Read(id, received, pending, replySent) =>
      var o := OnRead(s, id, received, pending, decode, replySent);
      if o.action.Relay? then (o.server, [o.server.queue[|o.server.queue| - 1]]) else (o.server, [])
    case RunBroadcast(k, reports) => (Perform(s, k, reports).server, [])
  }

  /** The counter after `k` increments. */
  function Advance(c: int, k: nat): (r: int)
    requires IsInt32(c)
    ensures IsInt32(r)
    decreases k
  {
    if k == 0 then c else NextNumber(Advance(c, k - 1))
  }

  lemma {:induction false} AdvanceFirst(c: int, k: nat)
    requires IsInt32(c)
    ensures Advance(NextNumber(c), k) == Advance(c, k + 1)
    decreases k
  {
    if k > 0 {
      AdvanceFirst(c, k - 1);
    }
  }

  /** Until the counter reaches Int32.MaxValue, `k` increments add exactly `k`; in general
      they add `k` modulo 2^32. */
  lemma {:induction false} AdvanceValue(c: int, k: nat)
    requires IsInt32(c)
    ensures c + k <= MaxInt32 ==> Advance(c, k) == c + k
    ensures Advance(c, k) == Wrap32(c + k)
    decreases k
  {
    if k > 0 {
      AdvanceValue(c, k - 1);
      WrapShift(c + k - 1, 1);
    }
  }

  /** The broadcasts carry the numbers following `c`, in creation order. */
  predicate Numbered(created: seq<Broadcast>, c: int)
    requires IsInt32(c)
  {
    forall i :: 0 <= i < |created| ==> created[i].number == Advance(c, i + 1)
  }

  lemma NumberedPrepend(first: Broadcast, more: seq<Broadcast>, c: int)
    requires IsInt32(c)
    requires first.number == NextNumber(c) && Numbered(more, NextNumber(c))
    ensures Numbered([first] + more, c)
  {
    var all := [first] + more;
    forall i | 1 <= i < |all|
      ensures all[i].number == Advance(c, i + 1)
    {
      assert all[i] == more[i - 1];
      AdvanceFirst(c, i);
    }
  }

  /** Broadcast numbering: the broadcasts a run creates carry the numbers that follow the
      counter's value, one increment each, and the counter ends on the last of them. */
  lemma {:induction false} RunNumbers(s: Server, events: seq<Event>, decode: seq<byte> -> string)
    requires Valid(s)
    ensures Run(s, events, decode).0.counter == Advance(s.counter, |Run(s, events, decode).1|)
    ensures Numbered(Run(s, events, decode).1, s.counter)
    decreases |events|
  {
    if |events| == 0 {
      assert Run(s, events, decode) == (s, []);
    } else {
      var st := Step(s, events[0], decode);
      RunNumbers(st.0, events[1..], decode);
      var rest := Run(st.0, events[1..], decode);
      assert Run(s, events, decode) == (rest.0, st.1 + rest.1);
      NumberedConcat(s.counter, st.0.counter, st.1, rest.0.counter, rest.1);
    }
  }

  /** The counter bookkeeping of one step followed by the rest of a run. */
  lemma {:induction false} NumberedConcat(c0: int, c1: int, first: seq<Broadcast>, c2: int, more: seq<Broadcast>)
    requires IsInt32(c0) && IsInt32(c1)
    requires |first| <= 1 && c1 == Advance(c0, |first|) && (|first| == 1 ==> first[0].number == c1)
    requires c2 == Advance(c1, |more|) && Numbered(more, c1)
    ensures c2 == Advance(c0, |first + more|) && Numbered(first + more, c0)
  {
    if |first| == 1 {
      NumberedPrepend(first[0], more, c0);
      AdvanceFirst(c0, |more|);
      assert first == [first[0]];
    } else {
      assert first + more == more;
    }
  }

  /** From start-up, as long as the counter has not wrapped, the broadcasts are numbered
      1, 2, 3, ... in creation order: strictly increasing and unique. */
  lemma NumbersIncrease(def: Identity, events: seq<Event>, decode: seq<byte> -> string)
    ensures var created := Run(Start(def), events, decode).1;
      |created| <= MaxInt32 ==>
        && (forall i :: 0 <= i < |created| ==> created[i].number == i + 1)
        && forall i, j :: 0 <= i < j < |created| ==> created[i].number < created[j].number
  {
    var created := Run(Start(def), events, decode).1;
    RunNumbers(Start(def), events, decode);
    if |created| <= MaxInt32 {
      NumberedFromZero(created);
    }
  }

  lemma NumberedFromZero(created: seq<Broadcast>)
    requires |created| <= MaxInt32 && Numbered(created, 0)
    ensures forall i :: 0 <= i < |created| ==> created[i].number == i + 1
  {
    forall i | 0 <= i < |created|
      ensures created[i].number == i + 1
    {
      AdvanceValue(0, i + 1);
    }
  }
}

=== FILE: scenarios.dfy ===
/** End-to-end properties of the relay: the frames a client sends as the server reads
    them, and the frames the server sends back as a client reads them. */
module Scenarios {
  import opened Wrappers
  import opened Wire
  import RelayClient
  import RelayServer

  /** The reply the server builds from a header: its first 16 bytes, then Welcome with
      length 0, read by the client whose identity those 16 bytes are. */
  lemma WelcomeReadsBack(me: Identity, reply: seq<byte>)
    requires |reply| == 20 && reply[..16] == me
    requires FromLE32(reply[16..]) == PackedField(0, Welcome)
    ensures RelayClient.Accepts(me, reply)
    ensures Has(ReadHeader(me, Some(reply)).value.code, SentByMe)
  {
    var tail := reply[16..];
    assert PackedField(0, Welcome) == 2;
    assert tail[0] == 2 && tail[1] == 0 && tail[2] == 0 && tail[3] == 0;
    assert LengthBytes(reply) == 0;
    assert reply[..IdentityLength] == me;
    var h := ReadHeader(me, Some(reply)).value;
    assert Low7(h.code) == Low7(2);
  }

  /** What the server reads of a client's frame: its 20-byte header, and the bytes behind it. */
  lemma ReadClientFrame(def: Identity, me: Identity, payload: seq<byte>, op: OpCode)
    requires |payload| < Two23
    ensures var frame := Encode(me, Some(payload), op);
      && FrameLength(frame[..20]) == |payload|
      && frame[..20][16] == Low7(op)
      && frame[20..] == payload
  {
    var frame := Encode(me, Some(payload), op);
    ReadPrepared(me, def, Some(payload), op);
    RelayClient.ReadHeaderPrefix(def, frame);
    var segs := PrepareSending(me, Some(payload), op);
    LE32RoundTrip(PackedField(|payload|, op));
    assert frame[16..20] == LE32(PackedField(|payload|, op));
    assert frame[..20][16] == frame[16];
  }

  /** The handshake closes: the server greets a client's Hello with the greeting text as
      the name, and the client accepts the Welcome it gets back, which carries the
      client's own identity and so reads as sent by itself. */
  lemma HelloWelcomeHandshake(def: Identity, me: Identity, greeting: seq<byte>, decode: seq<byte> -> string)
    requires |greeting| <= RelayServer.MaxMessageSize
    ensures var hello := Encode(me, Some(greeting), Hello);
      var a := RelayServer.Classify(def, Some(hello[..20]), hello[20..], decode, true);
      && a.Greet? && a.name == decode(greeting)
      && a.reply[..16] == me
      && RelayClient.Accepts(me, a.reply)
      && Has(ReadHeader(me, Some(a.reply)).value.code, SentByMe)
  {
    var hello := Encode(me, Some(greeting), Hello);
    ReadClientFrame(def, me, greeting, Hello);
    assert hello[20..][..|greeting|] == greeting;
    var a := RelayServer.Classify(def, Some(hello[..20]), hello[20..], decode, true);
    assert hello[..20][..16] == me;
    WelcomeReadsBack(me, a.reply);
  }

  /** An Evict frame is relayed byte for byte; a receiving client delivers its payload,
      except the sender itself, which only counts an echo. */
  lemma EvictRelayed(def: Identity, sender: Identity, reader: Identity, payload: seq<byte>,
                     decode: seq<byte> -> string, replySent: bool)
    requires 0 < |payload| <= RelayServer.MaxMessageSize
    ensures var frame := Encode(sender, Some(payload), Evict);
      var a := RelayServer.Classify(def, Some(frame[..20]), frame[20..], decode, replySent);
      && a == RelayServer.Relay(frame)
      && RelayClient.ReceiveFrames(reader, a.data) ==
           if reader == sender then RelayClient.Received([], 1, RelayClient.ReadFailed)
           else RelayClient.Received([payload], 0, RelayClient.ReadFailed)
  {
    var frame := Encode(sender, Some(payload), Evict);
    ReadClientFrame(def, sender, payload, Evict);
    assert frame[20..][..|payload|] == payload;
    assert frame[..20] + frame[20..] == frame;
    var f := [RelayClient.Frame(sender, payload)];
    assert f[1..] == [];
    assert RelayClient.WireBytes(f) == frame + [];
    assert frame + [] == frame;
    RelayClient.ReceiveSentFrames(reader, f);
  }

  /** Through the server's state: when a connected partner's Evict frame is read, the
      broadcast it queues carries the frame unchanged, and running it sends that frame
      to other partners only. */
  lemma EvictReachesOthersOnly(s: RelayServer.Server, id: nat, sender: Identity, payload: seq<byte>,
                               decode: seq<byte> -> string, reports: map<nat, int>)
    requires RelayServer.Valid(s)
    requires 0 <= RelayServer.PeerIndex(s.peers, id)
    requires s.peers[RelayServer.PeerIndex(s.peers, id)].socket == RelayServer.Connected
    requires 0 < |payload| <= RelayServer.MaxMessageSize
    ensures var frame := Encode(sender, Some(payload), Evict);
      var o := RelayServer.OnRead(s, id, Some(frame[..20]), frame[20..], decode, true);
      && o.action == RelayServer.Relay(frame)
      && |o.server.queue| > 0
      && var p := RelayServer.Perform(o.server, |o.server.queue| - 1, reports);
         forall d :: d in p.sent ==> d.target != id && d.data == frame
  {
    var frame := Encode(sender, Some(payload), Evict);
    EvictRelayed(s.def, sender, sender, payload, decode, true);
    var o := RelayServer.OnRead(s, id, Some(frame[..20]), frame[20..], decode, true);
    var q := |o.server.queue| - 1;
    assert o.server.queue[q] == RelayServer.Broadcast(o.server.counter, frame, id);
    RelayServer.FanOutExcludesSender(o.server, q, reports);
  }
}

=== FILE: tcp_cluster.dfy ===
/** The plain TCP transport: the prefix framing of the UDP transport carried over one
    stream socket, which the receive loop reads as if each Receive returned one message. */
module TcpCluster {
  import opened Wrappers
  import opened Wire
  import opened PrefixFraming
  import opened TransportBase

  /** The largest payload the transport accepts. */
  const MaxMessageSize: nat := 65000

  /** The transport's state: identity, address, the `closed` flag and the stream
      socket (absent until Init). */
  datatype Tcp = Tcp(me: Identity, addr: Address, closed: bool, socket: Option<Socket>)

  /** Whether `socket.Connect` reached a listening peer or threw. */
  datatype Connect = Connected | ConnectThrew

  /** The transport after Init, and why Init threw, if it did. */
  datatype Started = Started(t: Tcp, failure: Option<InitFailure>)

  /** Init: the address check, then the socket is created and assigned, then connected.
      When Connect throws, the unconnected socket stays assigned. */
  function Init(t: Tcp, parsesAsIp: string -> bool, connect: Connect): (r: Started)
    ensures InitCheck(t.addr, parsesAsIp) != Opening ==>
      r == Started(t, Some(Rejected(InitCheck(t.addr, parsesAsIp))))
    ensures r.failure.None? <==> InitCheck(t.addr, parsesAsIp) == Opening && connect == Connected
    ensures r.failure == Some(SetupFailed) <==> InitCheck(t.addr, parsesAsIp) == Opening && connect == ConnectThrew
    ensures r.t.me == t.me && r.t.addr == t.addr && r.t.closed == t.closed
    ensures InitCheck(t.addr, parsesAsIp) == Opening ==>
      r.t.socket == (if connect == Connected then Some(Open) else Some(Unready))
  {
    var check := InitCheck(t.addr, parsesAsIp);
    if check != Opening then Started(t, Some(Rejected(check)))
    else match connect
      case Connected => Started(t.(socket := Some(Open)), None)
      case ConnectThrew => Started(t.(socket := Some(Unready)), Some(SetupFailed))
  }

  /** SendMessage: the framed payload on an open socket; otherwise it throws. */
  function Send(t: Tcp, payload: seq<byte>, accepted: int): (r: Sent)
    ensures t.socket != Some(Open) ==> r.threw && r.offered == []
    ensures t.socket == Some(Open) ==> r.offered == Frame(t.me, payload)
    ensures t.socket == Some(Open) ==> (r.threw <==> accepted != |payload| + IdentityLength)
  {
    if t.socket == Some(Open) then SendMessage(t.me, payload, accepted) else Sent([], true)
  }

  /** The transport after Close, and whether Close threw. */
  datatype Closing = Closing(t: Tcp, threw: bool)

  /** Close: sets `closed` (so the receive loop stops at its next test), then shuts down
      and closes the socket. The reference is kept, so a second Close calls Shutdown on a
      disposed socket, which throws. Shutdown also throws on a socket that never
      connected, and then Close is not reached: the socket stays as it was. */
  function Close(t: Tcp): (r: Closing)
    ensures r.t.closed && r.t.me == t.me && r.t.addr == t.addr
    ensures r.t.socket.Some? <==> t.socket.Some?
    ensures r.t.socket != Some(Open)
    ensures r.threw <==> t.socket == Some(Closed) || t.socket == Some(Unready)
    ensures t.socket == Some(Unready) ==> r.t.socket == Some(Unready)
  {
    match t.socket
    case None => Closing(t.(closed := true), false)
    case Some(Open) => Closing(t.(closed := true, socket := Some(Closed)), false)
    case Some(s) => Closing(t.(closed := true), true)
  }

  /** After a failed connect, every Close throws, however often it is repeated: Shutdown
      keeps failing on the unconnected socket, which is never closed. */
  lemma {:induction false} FailedConnectCloseThrows(t: Tcp, parsesAsIp: string -> bool, n: nat)
    requires InitCheck(t.addr, parsesAsIp) == Opening
    ensures var c := CloseRepeatedly(Init(t, parsesAsIp, ConnectThrew).t, n);
      Close(c).threw && c.socket == Some(Unready)
    decreases n
  {
    if n > 0 {
      FailedConnectCloseThrows(t, parsesAsIp, n - 1);
    }
  }

  /** The transport after `n` calls of Close, whether they threw or not. */
  function CloseRepeatedly(t: Tcp, n: nat): (r: Tcp)
    ensures n > 0 ==> r.closed
    decreases n
  {
    if n == 0 then t else Close(CloseRepeatedly(t, n - 1)).t
  }

  /** Closing an initialised transport succeeds once; closing it again throws. */
  lemma SecondCloseThrows(t: Tcp, parsesAsIp: string -> bool)
    requires InitCheck(t.addr, parsesAsIp) == Opening
    ensures !Close(Init(t, parsesAsIp, Connected).t).threw
    ensures Close(Close(Init(t, parsesAsIp, Connected).t).t).threw
  {
  }

  /** After Close, SendMessage throws and nothing is sent. */
  lemma SendAfterCloseThrows(t: Tcp, payload: seq<byte>, accepted: int)
    ensures Send(Close(t).t, payload, accepted) == Sent([], true)
  {
  }

  /** A stream does not keep message boundaries: when two sends arrive in one Receive,
      the loop hands the second frame, identity and all, to the handler as part of the
      first payload. */
  lemma {:induction false} CoalescedReadsMerge(me: Identity, a: Identity, p: seq<byte>, b: Identity, q: seq<byte>)
    requires a != me
    ensures Filter(me, Frame(a, p) + Frame(b, q)) == Deliver(p + Frame(b, q))
  {
    var both := Frame(a, p) + Frame(b, q);
    assert both[..IdentityLength] == a;
    assert both[IdentityLength..] == p + Frame(b, q);
  }

  /** And when this node's own frame comes first in the read, the other node's frame
      behind it is dropped together with it. */
  lemma {:induction false} OwnFrameHidesNext(me: Identity, p: seq<byte>, b: Identity, q: seq<byte>)
    ensures Filter(me, Frame(me, p) + Frame(b, q)) == OwnEviction
  {
    var both := Frame(me, p) + Frame(b, q);
    assert both[..IdentityLength] == me;
  }
}

=== FILE: text.dfy ===
/** The .NET string and number primitives the transports rely on:
    character search, white-space tests, and Int32 parsing and printing. */
module Text {
  import opened Wrappers

  const MinInt32: int := -0x8000_0000
  const MaxInt32: int := 0x7FFF_FFFF

  predicate IsInt32(n: int) { MinInt32 <= n <= MaxInt32 }

  /** String.IndexOf for one character: the first position of `c`, or -1. */
  function IndexOf(s: string, c: char): (r: int)
    ensures -1 <= r < |s|
    ensures r == -1 <==> c !in s
    ensures 0 <= r ==> s[r] == c && forall j :: 0 <= j < r ==> s[j] != c
  {
    if |s| == 0 then -1
    else if s[0] == c then 0
    else
      var k := IndexOf(s[1..], c);
      if k == -1 then -1 else k + 1
  }

  /** String.LastIndexOf for one character: the last position of `c`, or -1. */
  function LastIndexOf(s: string, c: char): (r: int)
    ensures -1 <= r < |s|
    ensures r == -1 <==> c !in s
    ensures 0 <= r ==> s[r] == c && forall j :: r < j < |s| ==> s[j] != c
  {
    if |s| == 0 then -1
    else if s[|s| - 1] == c then |s| - 1
    else
      var k := LastIndexOf(s[..|s| - 1], c);
      assert k == -1 ==> s == s[..|s| - 1] + [s[|s| - 1]];
      k
  }

  lemma IndexOfSeparator(a: string, c: char, b: string)
    requires c !in a
    ensures IndexOf(a + [c] + b, c) == |a|
  {
    assert (a + [c] + b)[|a|] == c;
  }

  lemma LastIndexOfSeparator(a: string, c: char, b: string)
    requires c !in b
    ensures LastIndexOf(a + [c] + b, c) == |a|
  {
    assert (a + [c] + b)[|a|] == c;
  }

  /** Char.IsWhiteSpace: the Unicode separators plus U+0009..U+000D and U+0085. */
  predicate IsWhiteSpace(c: char) {
    || c == ' ' || '\t' <= c <= '\r' || c == '\U{0085}' || c == '\U{00A0}'
    || c == '\U{1680}' || '\U{2000}' <= c <= '\U{200A}' || c == '\U{2028}'
    || c == '\U{2029}' || c == '\U{202F}' || c == '\U{205F}' || c == '\U{3000}'
  }

  /** String.IsNullOrWhiteSpace, with null represented by the empty string. */
  predicate IsNullOrWhiteSpace(s: string) {
    forall i :: 0 <= i < |s| ==> IsWhiteSpace(s[i])
  }

  predicate IsDigit(c: char) { '0' <= c <= '9' }

  predicate AllDigits(s: string) { forall i :: 0 <= i < |s| ==> IsDigit(s[i]) }

  function DigitChar(d: nat): (c: char)
    requires d < 10
    ensures IsDigit(c) && (c as int) - ('0' as int) == d
  {
    (('0' as int) + d) as char
  }

  /** The decimal digits of `n`, most significant first, without leading zeros. */
  function NatToDecimal(n: nat): (r: string)
    ensures |r| >= 1 && AllDigits(r)
    ensures r[0] == '0' ==> n == 0
  {
    if n < 10 then [DigitChar(n)] else NatToDecimal(n / 10) + [DigitChar(n % 10)]
  }

  /** Int32.ToString in the invariant culture. */
  function IntToString(n: int): (r: string)
    ensures ':' !in r && '@' !in r
  {
    var r := if n < 0 then "-" + NatToDecimal(-n) else NatToDecimal(n);
    assert forall i :: 0 <= i < |r| ==> IsDigit(r[i]) || r[i] == '-';
    r
  }

  function DigitsValue(s: string): nat
    requires AllDigits(s)
  {
    if |s| == 0 then 0
    else DigitsValue(s[..|s| - 1]) * 10 + ((s[|s| - 1] as int) - ('0' as int))
  }

  lemma {:induction false} DigitsValueOfDecimal(n: nat)
    ensures DigitsValue(NatToDecimal(n)) == n
  {
    if n >= 10 {
      var s := NatToDecimal(n);
      assert s[..|s| - 1] == NatToDecimal(n / 10);
      DigitsValueOfDecimal(n / 10);
    }
  }

  /** The white space Int32.Parse skips around the number (NumberStyles.Integer). */
  predicate IsParseWhite(c: char) { c == ' ' || '\t' <= c <= '\r' }

  function TrimParseWhite(s: string): (r: string)
    ensures |r| <= |s|
    ensures |r| > 0 ==> !IsParseWhite(r[0]) && !IsParseWhite(r[|r| - 1])
    ensures forall i :: 0 <= i < |s| && !IsParseWhite(s[i]) ==> |r| > 0
    decreases |s|
  {
    if |s| > 0 && IsParseWhite(s[0]) then TrimParseWhite(s[1..])
    else if |s| > 0 && IsParseWhite(s[|s| - 1]) then TrimParseWhite(s[..|s| - 1])
    else s
  }

  /** Int32.Parse: optional surrounding white space, an optional sign and at least
      one decimal digit; `None` stands for its FormatException or OverflowException. */
  function ParseInt32(s: string): (r: Option<int>)
    ensures r.Some? ==> IsInt32(r.value)
  {
    ParseSigned(TrimParseWhite(s))
  }

  /** The number itself, once the surrounding white space is gone. */
  function ParseSigned(t: string): (r: Option<int>)
    ensures r.Some? ==> IsInt32(r.value)
    ensures r.Some? ==> |t| > 0 && (IsDigit(t[0]) || t[0] == '-' || t[0] == '+')
  {
    var digits := if |t| > 0 && (t[0] == '-' || t[0] == '+') then t[1..] else t;
    if |digits| == 0 || !AllDigits(digits) then None
    else
      var m: int := DigitsValue(digits);
      var v := if t[0] == '-' then -m else m;
      if IsInt32(v) then Some(v) else None
  }

  /** A ':' anywhere in the text makes Int32.Parse fail. */
  lemma ParseRejectsColon(s: string)
    requires ':' in s
    ensures ParseInt32(s) == None
  {
    var t := TrimParseWhite(s);
    var k :| 0 <= k < |s| && s[k] == ':';
    TrimKeeps(s, k);
    var digits := if |t| > 0 && (t[0] == '-' || t[0] == '+') then t[1..] else t;
    var j :| 0 <= j < |t| && t[j] == ':';
    if digits != t {
      assert digits[j - 1] == ':';
    } else {
      assert digits[j] == ':';
    }
  }

  /** Trimming removes only white space: any other character survives it. */
  lemma {:induction false} TrimKeeps(s: string, k: nat)
    requires k < |s| && !IsParseWhite(s[k])
    ensures s[k] in TrimParseWhite(s)
    decreases |s|
  {
    if IsParseWhite(s[0]) {
      assert s[1..][k - 1] == s[k];
      TrimKeeps(s[1..], k - 1);
    } else if IsParseWhite(s[|s| - 1]) {
      assert s[..|s| - 1][k] == s[k];
      TrimKeeps(s[..|s| - 1], k);
    }
  }

  /** Printing an Int32 and parsing it back gives the same number. */
  lemma ParseIntToString(n: int)
    requires IsInt32(n)
    ensures ParseInt32(IntToString(n)) == Some(n)
  {
    var s := IntToString(n);
    assert !IsParseWhite(s[0]) && !IsParseWhite(s[|s| - 1]);
    assert TrimParseWhite(s) == s;
    if n < 0 {
      ParseNegative(-n);
    } else {
      ParseNatural(n);
    }
  }

  lemma ParseNatural(n: nat)
    requires n <= MaxInt32
    ensures ParseSigned(NatToDecimal(n)) == Some(n)
  {
    DigitsValueOfDecimal(n);
  }

  lemma ParseNegative(m: nat)
    requires 0 < m <= -MinInt32
    ensures ParseSigned("-" + NatToDecimal(m)) == Some(-(m as int))
  {
    var t := "-" + NatToDecimal(m);
    assert t[1..] == NatToDecimal(m);
    DigitsValueOfDecimal(m);
  }
}

=== FILE: transport_base.dfy ===
/** The send path and socket teardown that the relay client and the broker
    transport inherit from the transport base class. */
module TransportBase {
  import opened Wrappers
  import opened Text
  import opened Wire

  /** A socket object: set up and usable; created, but the Connect, Bind or option call
      after its construction threw, so it is neither connected nor bound; or shut down
      and closed. */
  datatype Socket = Open | Unready | Closed

  /** What Socket.Send(list, flags, out error) reported: bytes accepted, and whether
      the error code was anything but Success. */
  datatype SendAttempt = SendAttempt(sent: int, failed: bool)

  /** The `closed` flag after SendBase, whether it threw "Cache Communication Broken",
      and the frame it offered to the socket, if it tried. */
  datatype SendOutcome = SendOutcome(closed: bool, threw: bool, offered: Option<seq<byte>>)

  /** SendBase: with the transport open and a socket present, offer the framed payload;
      a short send or a socket error sets `closed`; whenever `closed` is set afterwards,
      the call throws. */
  function SendBase(me: Identity, closed: bool, socket: Option<Socket>, raw: Option<seq<byte>>,
                    code: OpCode, attempt: SendAttempt): (r: SendOutcome)
    requires raw.Some? ==> |raw.value| <= MaxInt32
    ensures r.threw <==> r.closed
    ensures closed ==> r.closed && r.offered.None?
    ensures !closed && socket.None? ==> !r.closed && r.offered.None?
    ensures !closed && socket.Some? ==> r.offered == Some(Encode(me, raw, code))
    ensures !closed && socket.Some? ==>
      (r.closed <==> attempt.failed || attempt.sent != 20 + (if raw.Some? then |raw.value| else 0))
  {
    var toSend := PrepareSending(me, raw, code);
    var length := GetLength(Some(toSend));
    PreparedLength(me, raw, code);
    if !closed && socket.Some? then
      var closed' := attempt.sent != length || attempt.failed;
      SendOutcome(closed', closed', Some(Concat(toSend)))
    else
      SendOutcome(closed, closed, None)
  }

  /** One call to SendBase in a series: the payload, opcode and what the socket did. */
  datatype SendCall = SendCall(raw: Option<seq<byte>>, code: OpCode, attempt: SendAttempt)

  predicate ValidCalls(calls: seq<SendCall>) {
    forall i :: 0 <= i < |calls| ==> (calls[i].raw.Some? ==> |calls[i].raw.value| <= MaxInt32)
  }

  /** Runs SendBase once per call, threading `closed`; yields, per call, whether it threw. */
  function SendSeries(me: Identity, closed: bool, socket: Option<Socket>, calls: seq<SendCall>): (r: (bool, seq<bool>))
    requires ValidCalls(calls)
    ensures |r.1| == |calls|
    decreases |calls|
  {
    if |calls| == 0 then (closed, [])
    else
      var o := SendBase(me, closed, socket, calls[0].raw, calls[0].code, calls[0].attempt);
      var rest := SendSeries(me, o.closed, socket, calls[1..]);
      (rest.0, [o.threw] + rest.1)
  }

  /** `closed` is sticky: once a call has thrown, the flag stays set and every later
      call throws as well. */
  lemma {:induction false} ClosedIsSticky(me: Identity, closed: bool, socket: Option<Socket>, calls: seq<SendCall>)
    requires ValidCalls(calls)
    ensures closed ==> SendSeries(me, closed, socket, calls).0
    ensures closed ==> forall i :: 0 <= i < |calls| ==> SendSeries(me, closed, socket, calls).1[i]
    ensures forall i, j :: 0 <= i < j < |calls| && SendSeries(me, closed, socket, calls).1[i] ==>
      SendSeries(me, closed, socket, calls).1[j]
    decreases |calls|
  {
    if |calls| > 0 {
      var o := SendBase(me, closed, socket, calls[0].raw, calls[0].code, calls[0].attempt);
      ClosedIsSticky(me, o.closed, socket, calls[1..]);
      var r := SendSeries(me, closed, socket, calls);
      var rest := SendSeries(me, o.closed, socket, calls[1..]);
      assert r.1 == [o.threw] + rest.1;
      forall i, j | 0 <= i < j < |calls| && r.1[i]
        ensures r.1[j]
      {
        if i == 0 {
          assert rest.1[j - 1];
        } else {
          assert rest.1[i - 1];
        }
      }
    }
  }

  /** With no socket and the transport open, a series of sends does nothing at all. */
  lemma {:induction false} NoSocketSendsNothing(me: Identity, calls: seq<SendCall>)
    requires ValidCalls(calls)
    ensures !SendSeries(me, false, None, calls).0
    ensures forall i :: 0 <= i < |calls| ==> !SendSeries(me, false, None, calls).1[i]
  {
    if |calls| > 0 {
      NoSocketSendsNothing(me, calls[1..]);
    }
  }

  /** What SafeClose leaves behind: the socket object it was given, and the
      reference it returns. */
  datatype CloseResult = CloseResult(socket: Option<Socket>, returned: Option<Socket>)

  /** SafeClose: shuts down and closes the socket it is given and always returns null;
      a caller that ignores the result still holds the reference. Shutdown and Close
      share one try whose exception is swallowed, so on a socket that never connected
      Shutdown throws, Close is skipped, and the socket stays as it was. */
  function SafeClose(s: Option<Socket>): (r: CloseResult)
    ensures r.returned.None?
    ensures r.socket.Some? <==> s.Some?
    ensures s == Some(Unready) ==> r.socket == s
    ensures s.Some? && s != Some(Unready) ==> r.socket == Some(Closed)
  {
    if s == Some(Unready) then CloseResult(s, None)
    else if s.Some? then CloseResult(Some(Closed), None)
    else CloseResult(None, s)
  }
}

=== FILE: udp_multicast.dfy ===
/** The UDP multicast transport: the address, Init check, framing and receive loop it
    shares with the other prefix-framed transports, plus its own socket handling. */
module UdpMulticast {
  import opened Wrappers
  import opened Wire
  import opened PrefixFraming
  import opened TransportBase

  /** The largest payload the transport accepts. */
  const MaxMessageSize: nat := 65000

  /** The receive buffer: a largest payload behind the identity. */
  const BufferLength: nat := MaxMessageSize + IdentityLength

  /** The transport's state: identity, address, the `closed` flag and the two sockets
      (absent until Init). */
  datatype Udp = Udp(me: Identity, addr: Address, closed: bool, sender: Option<Socket>, receiver: Option<Socket>)

  /** A fresh transport: nothing configured, no sockets. */
  function Create(me: Identity): (t: Udp)
    ensures InitCheck(t.addr, _ => true) == MissingAddress
  {
    Udp(me, Unset, false, None, None)
  }

  /** How Init's socket calls went: all of them worked; one on the sender threw
      (AddMembership with an address that is not multicast, or Connect); or one on the
      receiver threw (AddMembership or Bind). */
  datatype Setup = SetUp | SenderThrew | ReceiverThrew

  /** The transport after Init, and why Init threw, if it did. */
  datatype Started = Started(t: Udp, failure: Option<InitFailure>)

  /** Init: the address check, then the sender socket is created, configured and
      connected, then the receiver socket is created, configured and bound. A socket
      call that throws leaves the socket it was made on assigned but unusable, and the
      receiver untouched when it was the sender's call. */
  function Init(t: Udp, parsesAsIp: string -> bool, setup: Setup): (r: Started)
    ensures InitCheck(t.addr, parsesAsIp) != Opening ==>
      r == Started(t, Some(Rejected(InitCheck(t.addr, parsesAsIp))))
    ensures r.failure.None? <==> InitCheck(t.addr, parsesAsIp) == Opening && setup == SetUp
    ensures r.failure == Some(SetupFailed) <==> InitCheck(t.addr, parsesAsIp) == Opening && setup != SetUp
    ensures r.t.me == t.me && r.t.addr == t.addr && r.t.closed == t.closed
    ensures InitCheck(t.addr, parsesAsIp) == Opening ==>
      && r.t.sender == (if setup == SenderThrew then Some(Unready) else Some(Open))
      && r.t.receiver == (match setup
                          case SetUp => Some(Open)
                          case SenderThrew => t.receiver
                          case ReceiverThrew => Some(Unready))
  {
    var check := InitCheck(t.addr, parsesAsIp);
    if check != Opening then Started(t, Some(Rejected(check)))
    else match setup
      case SetUp => Started(t.(sender := Some(Open), receiver := Some(Open)), None)
      case SenderThrew => Started(t.(sender := Some(Unready)), Some(SetupFailed))
      case ReceiverThrew => Started(t.(sender := Some(Open), receiver := Some(Unready)), Some(SetupFailed))
  }

  /** A sender whose set-up threw is kept, and every later send on it throws without
      offering anything; Close still closes both sockets, and does not throw. */
  lemma SenderSetupFailureBreaksSend(t: Udp, parsesAsIp: string -> bool, payload: seq<byte>, accepted: int)
    requires InitCheck(t.addr, parsesAsIp) == Opening
    ensures var s := Init(t, parsesAsIp, SenderThrew);
      && s.failure == Some(SetupFailed)
      && Send(s.t, payload, accepted) == Sent([], true)
      && Close(s.t).sender == Some(Closed)
  {
  }

  /** SendMessage has no `closed` guard: without an open sender socket (before Init a
      null reference, after Close a disposed socket) it throws and sends nothing. */
  function Send(t: Udp, payload: seq<byte>, accepted: int): (r: Sent)
    ensures t.sender != Some(Open) ==> r.threw && r.offered == []
    ensures t.sender == Some(Open) ==> r.offered == Frame(t.me, payload)
    ensures t.sender == Some(Open) ==> (r.threw <==> accepted != |payload| + IdentityLength)
  {
    if t.sender == Some(Open) then SendMessage(t.me, payload, accepted) else Sent([], true)
  }

  /** Close: sets `closed` (which ends the receive loop at its next test) and closes
      whichever sockets exist. */
  function Close(t: Udp): (r: Udp)
    ensures r.closed && r.me == t.me && r.addr == t.addr
    ensures r.sender.Some? <==> t.sender.Some?
    ensures r.receiver.Some? <==> t.receiver.Some?
    ensures r.sender != Some(Open) && r.receiver != Some(Open)
  {
    t.(closed := true, sender := Shut(t.sender), receiver := Shut(t.receiver))
  }

  /** A socket reference after Socket.Close: still held, now closed. */
  function Shut(s: Option<Socket>): Option<Socket> {
    if s.Some? then Some(Closed) else None
  }

  /** Because SendMessage is unguarded, sending after Close throws instead of being
      ignored, and nothing reaches the network. */
  lemma SendAfterCloseThrows(t: Udp, payload: seq<byte>, accepted: int)
    ensures Send(Close(t), payload, accepted) == Sent([], true)
  {
  }

  /** Sending on a transport whose Init completed offers exactly the framed payload, and
      throws exactly when the socket took fewer bytes. */
  lemma SendAfterInit(t: Udp, parsesAsIp: string -> bool, payload: seq<byte>, accepted: int)
    requires InitCheck(t.addr, parsesAsIp) == Opening
    ensures Send(Init(t, parsesAsIp, SetUp).t, payload, accepted).offered == t.me + payload
    ensures Send(Init(t, parsesAsIp, SetUp).t, payload, accepted).threw <==> accepted != |payload| + 16
  {
  }

  /** Closing twice is closing once. */
  lemma CloseIdempotent(t: Udp)
    ensures Close(Close(t)) == Close(t)
  {
  }
}

=== FILE: wire.dfy ===
/** The frame codec shared by the socket transports: a 16-byte sender identity,
    then a little-endian Int32 packing `(length << 8) | opcode`, then the payload. */
module Wire {
  import opened Wrappers
  import opened Text

  type byte = x: int | 0 <= x < 256

  const IdentityLength: nat := 16

  /** A transport's local identifier (Guid.ToByteArray): fixed for the instance's lifetime. */
  type Identity = s: seq<byte> | |s| == IdentityLength witness seq(16, _ => 0)

  /** The [Flags] OpCode enumeration (a byte); `SentByMe` is derived by the reader, never sent. */
  type OpCode = byte

  type Flag = f: OpCode | f == 1 || f == 2 || f == 4 || f == 128 witness 1

  const Hello: Flag := 1
  const Welcome: Flag := 2
  const Evict: Flag := 4
  const SentByMe: Flag := 128

  /** `(code & flag) != 0` for a one-bit flag. */
  predicate Has(code: OpCode, flag: Flag) {
    if flag == Hello then code % 2 == 1
    else if flag == Welcome then (code / 2) % 2 == 1
    else if flag == Evict then (code / 4) % 2 == 1
    else code >= 128
  }

  /** `op & ~SentByMe`: the seven bits that travel on the wire. */
  function Low7(op: OpCode): (r: OpCode)
    ensures r < 128 && !Has(r, SentByMe)
    ensures Has(r, Hello) == Has(op, Hello) && Has(r, Welcome) == Has(op, Welcome)
    ensures Has(r, Evict) == Has(op, Evict)
  {
    if op >= 128 then op - 128 else op
  }

  /** `code | SentByMe`. */
  function MarkSentByMe(code: OpCode): (r: OpCode)
    ensures Has(r, SentByMe) && Low7(r) == Low7(code)
  {
    if code >= 128 then code else code + 128
  }

  const Two32: int := 0x1_0000_0000
  const Two23: int := 0x80_0000
  const Two24: int := 0x100_0000

  /** HeaderLength: the identity followed by the 4-byte packed field. */
  function HeaderLength(me: Identity): (n: nat)
    ensures n == |me| + 4 && n == 20
  {
    |me| + 4
  }

  /** BitConverter.GetBytes(int), fixed to little-endian, on the 32-bit pattern `u`. */
  function LE32(u: int): (r: seq<byte>)
    requires 0 <= u < Two32
    ensures |r| == 4
  {
    [u % 256, (u / 0x100) % 256, (u / 0x1_0000) % 256, u / 0x100_0000]
  }

  /** The unsigned 32-bit pattern of four little-endian bytes. */
  function FromLE32(b: seq<byte>): (u: int)
    requires |b| == 4
    ensures 0 <= u < Two32
  {
    var b0: int, b1: int, b2: int, b3: int := b[0], b[1], b[2], b[3];
    b0 + 0x100 * b1 + 0x1_0000 * b2 + 0x100_0000 * b3
  }

  lemma LE32RoundTrip(u: int)
    requires 0 <= u < Two32
    ensures FromLE32(LE32(u)) == u
  {
    var q1 := u / 0x100;
    var q2 := q1 / 0x100;
    assert u == q1 * 0x100 + u % 256;
    assert q1 == q2 * 0x100 + q1 % 256;
    assert q2 == (u / 0x100_0000) * 0x100 + q2 % 256;
    assert (u / 0x100) % 256 == q1 % 256;
    assert (u / 0x1_0000) == q2;
  }

  /** Reinterprets a 32-bit pattern as a two's-complement Int32 (BitConverter.ToInt32). */
  function ToSigned32(u: int): (r: int)
    requires 0 <= u < Two32
    ensures IsInt32(r) && (r - u) % Two32 == 0
  {
    if u <= MaxInt32 then u else u - Two32
  }

  /** The packed field `(len << 8) | (byte)(op & ~SentByMe)` as its 32-bit pattern:
      the shift of a C# int discards the bits above bit 31. */
  function PackedField(len: nat, op: OpCode): (u: int)
    ensures 0 <= u < Two32
    ensures u % 256 == Low7(op)
    ensures u / 256 == len % Two24
  {
    var shifted := (len * 256) % Two32;
    assert shifted == (len % Two24) * 256;
    shifted + Low7(op)
  }

  /** PrepareSending: the segments handed to the socket; a null payload gives no third segment. */
  function PrepareSending(me: Identity, raw: Option<seq<byte>>, op: OpCode): (r: seq<seq<byte>>)
    requires raw.Some? ==> |raw.value| <= MaxInt32
    ensures |r| == (if raw.Some? then 3 else 2)
    ensures r[0] == me && |r[1]| == 4
    ensures FromLE32(r[1]) == PackedField(if raw.Some? then |raw.value| else 0, op)
    ensures raw.Some? ==> r[2] == raw.value
  {
    var len := if raw.Some? then |raw.value| else 0;
    LE32RoundTrip(PackedField(len, op));
    [me, LE32(PackedField(len, op))] + (if raw.Some? then [raw.value] else [])
  }

  function Concat(segments: seq<seq<byte>>): seq<byte>
  {
    if |segments| == 0 then [] else segments[0] + Concat(segments[1..])
  }

  /** GetLength: the total byte count of a segment list, 0 for a null list. */
  function GetLength(list: Option<seq<seq<byte>>>): (n: nat)
    ensures list.None? ==> n == 0
    ensures list.Some? ==> n == |Concat(list.value)|
  {
    if list.None? then 0 else SumCounts(list.value)
  }

  function SumCounts(segments: seq<seq<byte>>): (n: nat)
    ensures n == |Concat(segments)|
  {
    if |segments| == 0 then 0 else |segments[0]| + SumCounts(segments[1..])
  }

  /** The bytes of a frame as they appear on the wire. */
  function Encode(me: Identity, raw: Option<seq<byte>>, op: OpCode): (frame: seq<byte>)
    requires raw.Some? ==> |raw.value| <= MaxInt32
    ensures |frame| == 20 + (if raw.Some? then |raw.value| else 0)
    ensures frame[..16] == me
    ensures frame[16..20] == PrepareSending(me, raw, op)[1]
    ensures raw.Some? ==> frame[20..] == raw.value
  {
    var segs := PrepareSending(me, raw, op);
    var tail := if raw.Some? then raw.value else [];
    assert Concat(segs[2..]) == tail by {
      if raw.Some? {
        assert segs[2..][1..] == [];
      }
    }
    assert Concat(segs) == me + (segs[1] + tail) by {
      assert segs[1..][1..] == segs[2..];
    }
    Concat(segs)
  }

  /** The count SendBase compares with what the socket accepted: the 20-byte header
      plus the payload, and 0 for no list at all. */
  lemma PreparedLength(me: Identity, raw: Option<seq<byte>>, op: OpCode)
    requires raw.Some? ==> |raw.value| <= MaxInt32
    ensures GetLength(Some(PrepareSending(me, raw, op))) == 20 + (if raw.Some? then |raw.value| else 0)
    ensures GetLength(None) == 0
  {
    var f := Encode(me, raw, op);
  }

  /** Byte-for-byte equality of the identity prefix with the local identifier. */
  predicate IsFrom(buffer: seq<byte>, me: Identity)
    requires |buffer| >= IdentityLength
  {
    buffer[..IdentityLength] == me
  }

  /** SentByMe: compares the first |me| bytes of the received buffer with `me`. */
  method SentByMeCheck(received: seq<byte>, me: Identity) returns (r: bool)
    requires |received| >= |me|
    ensures r <==> IsFrom(received, me)
  {
    var i := 0;
    while i < |me|
      invariant 0 <= i <= |me|
      invariant received[..i] == me[..i]
    {
      if received[i] != me[i] {
        assert received[..IdentityLength][i] != me[i];
        return false;
      }
      i := i + 1;
    }
    return true;
  }

  datatype Header = Header(length: int, code: OpCode)

  /** Bytes 17..19 of a header: the length field as an unsigned 24-bit number. */
  function LengthBytes(b: seq<byte>): int
    requires |b| >= 20
  {
    var b1: int, b2: int, b3: int := b[17], b[18], b[19];
    b1 + 0x100 * b2 + 0x1_0000 * b3
  }

  /** The header's length field, bytes 17..19, as a signed 24-bit number. */
  function FrameLength(header: seq<byte>): (n: int)
    requires |header| >= 20
    ensures -Two23 <= n < Two23
  {
    var u := LengthBytes(header);
    if u < Two23 then u else u - Two24
  }

  datatype FrameError = BufferTooSmall

  /** ReadHeader: the packed field is read as a signed Int32; the opcode is its low byte,
      with SentByMe added when the identity prefix is the reader's own; the length is
      the field shifted right arithmetically by 8, so it can be negative. */
  function ReadHeader(me: Identity, buffer: Option<seq<byte>>): (r: Result<Header, FrameError>)
    ensures r.Failure? <==> buffer.None? || |buffer.value| < 20
    ensures r.Success? ==> r.value.length == FrameLength(buffer.value)
    ensures r.Success? ==> Low7(r.value.code) == Low7(buffer.value[16])
    ensures r.Success? ==>
      (Has(r.value.code, SentByMe) <==> IsFrom(buffer.value, me) || buffer.value[16] >= 128)
  {
    if buffer.None? || |buffer.value| < 20 then Failure(BufferTooSmall)
    else
      var b := buffer.value;
      var tmp := ToSigned32(FromLE32(b[16..20]));
      var code: OpCode := tmp % 256;
      var code' := if IsFrom(b, me) then MarkSentByMe(code) else code;
      var u := FromLE32(b[16..20]);
      assert u == b[16] + 256 * LengthBytes(b);
      assert tmp == u || tmp == u - Two32;
      assert tmp == b[16] + 256 * FrameLength(b);
      Success(Header(tmp / 256, code'))
  }

  /** Hello, Welcome and Evict read back as they were sent; only SentByMe is derived. */
  lemma ReadHeaderFlags(me: Identity, header: seq<byte>, f: Flag)
    requires |header| >= 20 && f != SentByMe
    ensures Has(ReadHeader(me, Some(header)).value.code, f) <==> Has(header[16], f)
  {
    var code := ReadHeader(me, Some(header)).value.code;
    assert Has(Low7(code), f) <==> Has(code, f);
    assert Has(Low7(header[16]), f) <==> Has(header[16], f);
  }

  /** The Int32 that unchecked arithmetic yields for the mathematical value `n`. */
  function Wrap32(n: int): (r: int)
    ensures IsInt32(r)
    ensures IsInt32(n) ==> r == n
  {
    ToSigned32(n % Two32)
  }

  /** Wrapping only ever adds or removes whole multiples of 2^32. */
  lemma Wrap32Congruent(n: int)
    ensures (Wrap32(n) - n) % Two32 == 0
  {
  }

  /** Wrapping twice is wrapping once: adding `d` to a wrapped value wraps like adding it first. */
  lemma WrapShift(n: int, d: int)
    ensures Wrap32(Wrap32(n) + d) == Wrap32(n + d)
  {
    var a := Wrap32(n);
    Wrap32Congruent(n);
    var q := (a - n) / Two32;
    assert a == n + q * Two32;
    assert (a + d) % Two32 == (n + d) % Two32;
  }

  /** The length ReadHeader gives back for a payload of `n` bytes. */
  function WrapLength(n: nat): (len: int)
    ensures n < Two23 ==> len == n
  {
    var m := n % Two24;
    if m < Two23 then m else m - Two24
  }

  /** Header round trip: reading a prepared frame recovers the payload length (modulo the
      24-bit field) and `op & 0x7F`; SentByMe is set exactly when the reader is the sender. */
  lemma ReadPrepared(me: Identity, reader: Identity, raw: Option<seq<byte>>, op: OpCode)
    requires raw.Some? ==> |raw.value| <= MaxInt32
    ensures ReadHeader(reader, Some(Encode(me, raw, op))) ==
      Success(Header(WrapLength(if raw.Some? then |raw.value| else 0),
                     if me == reader then MarkSentByMe(Low7(op)) else Low7(op)))
  {
    var len := if raw.Some? then |raw.value| else 0;
    var f := Encode(me, raw, op);
    var segs := PrepareSending(me, raw, op);
    assert f[16..20] == segs[1];
    var u := PackedField(len, op);
    var tmp := ToSigned32(u);
    var m := len % Two24;
    assert u == m * 256 + Low7(op);
    if m < Two23 {
      assert tmp == u;
    } else {
      assert tmp == (m - Two24) * 256 + Low7(op);
    }
    assert tmp / 256 == WrapLength(len);
    assert tmp % 256 == Low7(op);
  }

  /** Payloads of 2^23 bytes or more come back with a negative length. */
  lemma LongPayloadReadsNegative(me: Identity, raw: seq<byte>, op: OpCode)
    requires Two23 <= |raw| < Two24
    ensures ReadHeader(me, Some(Encode(me, Some(raw), op))).value.length == |raw| - Two24 < 0
  {
    ReadPrepared(me, me, Some(raw), op);
  }
}

=== FILE: wrappers.dfy ===
/** Failure-carrying results used throughout the model: a missing value, and
    an operation that either succeeds or raises one of the source's exceptions. */
module Wrappers {

  datatype Option<+T> = None | Some(value: T)

  datatype Result<+T, +E> = Success(value: T) | Failure(error: E)
}
